=== FILE: README.md ===
# CHIP-8 interpreter core in Dafny

This project models the core of a small CHIP-8 interpreter written in Rust:

- the virtual machine of `src/virtual_machine.rs`:
  - its state, built with the font installed at 0x50;
  - instruction fetch and decoding into the `Opcodes` fields;
  - the keypad handlers;
  - every instruction handler from 00E0 to Fx29;
- the pure parts of `src/rendering.rs`:
  - turning the 2048-cell frame buffer into the list of lit points;
  - the colour palette lookup.

Each handler is a pure function from a machine state to an `Outcome`:

- `Ok(state)` for the successor state;
- `Panic` wherever the Rust code panics under its default debug profile:
  - an index out of bounds;
  - a `u8`/`u16` `+=`/`-=` that overflows;
  - `unwrap` on an empty stack;
  - `todo!`;
- `Hang` where the Rust code loops forever.

Integer widths are explicit. `Byte` is 0..255 and `U16` is 0..65535. The decoded fields keep the Rust type `u16`, so a handler given a field of 16 or more panics exactly where Rust's indexing would. The random byte `op_Cxkk` draws from its generator is an argument of `OpCxkk`.

Modules:

- `Outcomes`: the result type.
- `Machine`: the state, `Build`, `Fetch` and `Decode`.
- `Keypad`: key events.
- `Flow`: jumps, calls and skips.
- `Bits`: bitwise operators defined on integers.
- `Arithmetic`: 6xkk to Cxkk.
- `Timers`: Annn and the Fx handlers.
- `Sprite`: Dxyn.
- `Rendering`.
- `Sequences`: lemmas over pairs of handlers.
- `Findings`: the discrepancies listed under Findings, each as written and corrected.

The model follows the code where the code and its comments or the usual CHIP-8 descriptions disagree:

- `fetch` advances the program counter by two.
- 8xy1, 8xy2 and 8xy3 leave VF alone.
- The 8xy5 and 8xy7 flags use a strict comparison, and the subtraction panics when it would go below zero.
- 8xy6 and 8xyE first copy Vx into Vy.
- 00E0 does not set `update_display`.
- Fx1E sets VF when I passes 0xFFF.

The register file has sixteen entries, V0 to VF, although line 13 declares eight. See Findings.

## Model

| member | source | states |
|---|---|---|
| Machine.Build | src/virtual_machine.rs:30-51 | the font's 80 bytes sit at 0x50..0x9F and every other memory byte is 0; PC is 0x200; I, the timers and the stack are empty or 0; every register, pixel and key is clear; no redraw is pending |
| Machine.Decode | src/virtual_machine.rs:57-72 | the fields are nibbles (nnn is 12 bits); nn is the low byte; nn = 16·y + n and nnn = 256·x + nn; re-encoding the nibbles gives back the instruction |
| Machine.DecodeEncode | src/virtual_machine.rs:57-72 | decoding is a bijection: every well-formed field tuple encodes to a u16 that decodes back to it |
| Machine.Fetch | src/virtual_machine.rs:53-73 | panics exactly when PC or PC+1 is outside memory; otherwise only PC changes, by +2, and the fields are those of the big-endian word at PC |
| Keypad.KeyIndex | src/virtual_machine.rs:75-95 | exactly the sixteen mapped keycodes yield an index, always below 16 |
| Keypad.KeyTableBijective | src/virtual_machine.rs:75-117 | the keycode table is one-to-one and onto the indices 0x0..0xF |
| Keypad.KeyDown | src/virtual_machine.rs:75-95 | the mapped key becomes pressed; no other key and no other field changes; an unmapped keycode changes nothing |
| Keypad.KeyUp | src/virtual_machine.rs:97-117 | the mapped key becomes released; no other key and no other field changes; an unmapped keycode changes nothing |
| Keypad.KeyEdgesAreLevels | src/virtual_machine.rs:75-117 | both handlers are idempotent, and the later of a press and a release wins |
| Keypad.PressReleaseRestores | src/virtual_machine.rs:75-117 | pressing then releasing a key that was up restores the state |
| Machine.AddToProgramCounter | src/virtual_machine.rs:143 | the u16 `program_counter += 2` of the skips (lines 143, 150, 157, 236, 286 and 292): it panics exactly when the sum leaves the u16 range, and otherwise only PC changes, by the given amount |
| Machine.Reg | src/virtual_machine.rs:142 | the indexed read `registers[x]`: it panics exactly when x is past the sixteen registers, and otherwise gives Vx |
| Flow.Op00E0 | src/virtual_machine.rs:119-122 | every pixel goes dark and nothing else changes |
| Flow.Op00EE | src/virtual_machine.rs:124-127 | panics exactly on an empty stack; otherwise the old stack is the new stack plus the new PC, and nothing else changes |
| Flow.Op1nnn | src/virtual_machine.rs:129-132 | only PC changes, to nnn |
| Flow.Op2nnn | src/virtual_machine.rs:134-138 | the return address is pushed, PC becomes nnn, and nothing else changes |
| Flow.CallThenReturn | src/virtual_machine.rs:124-138 | 2nnn followed by 00EE restores the state |
| Flow.ReturnOnEmptyStackPanics | src/virtual_machine.rs:126 | 00EE on an empty stack panics |
| Flow.OpBnnn | src/virtual_machine.rs:245-248 | PC := nnn + V0, panicking only when the u16 addition overflows, which a decoded nnn never causes |
| Flow.Op3xkk | src/virtual_machine.rs:140-145 | panics on x ≥ 16; skips (PC += 2 with u16 overflow) when Vx = kk; otherwise leaves the state alone |
| Flow.Op4xkk | src/virtual_machine.rs:147-152 | as 3xkk with the condition Vx ≠ kk |
| Flow.Op5xy0 | src/virtual_machine.rs:154-159 | panics on x or y ≥ 16; skips exactly when Vx = Vy |
| Flow.Op9xy0 | src/virtual_machine.rs:233-238 | panics on x or y ≥ 16; skips exactly when Vx ≠ Vy |
| Flow.OpEx9E | src/virtual_machine.rs:283-287 | panics on x ≥ 16 or Vx ≥ 16; skips exactly when key Vx is down |
| Flow.OpExA1 | src/virtual_machine.rs:289-293 | panics on x ≥ 16 or Vx ≥ 16; skips exactly when key Vx is up |
| Flow.SkipEqualComplementary | src/virtual_machine.rs:140-152 | for x < 16, on any state exactly one of 3xkk and 4xkk skips and the other changes nothing |
| Flow.SkipRegistersComplementary | src/virtual_machine.rs:154-159 | for x, y < 16, exactly one of 5xy0 and 9xy0 skips and the other changes nothing |
| Flow.SkipKeyComplementary | src/virtual_machine.rs:283-293 | for x < 16 and Vx < 16, exactly one of Ex9E and ExA1 skips and the other changes nothing |
| Arithmetic.Op6xkk | src/virtual_machine.rs:161-164 | panics on x ≥ 16; otherwise Vx = kk and no other register or field changes |
| Arithmetic.Op7xkk | src/virtual_machine.rs:166-169 | succeeds exactly when x < 16 and Vx + kk fits in a u8; Vx becomes the sum; no other register changes, so for x below VF the flag is untouched |
| Arithmetic.Op8xy0 | src/virtual_machine.rs:171-174 | Vx := Vy; nothing else changes |
| Arithmetic.Op8xy1 | src/virtual_machine.rs:176-179 | each of the 8 bits of the new Vx is the OR of the old Vx and Vy bits; only Vx changes |
| Arithmetic.Op8xy2 | src/virtual_machine.rs:181-184 | bitwise AND, stated bit by bit; only Vx changes |
| Arithmetic.Op8xy3 | src/virtual_machine.rs:186-189 | bitwise XOR, stated bit by bit; only Vx changes |
| Arithmetic.Op8xy4 | src/virtual_machine.rs:191-202 | VF is the carry; for x below VF, without a carry Vx is the sum and with one Vx is the sum mod 255 as written; only Vx and VF change |
| Arithmetic.Op8xy5 | src/virtual_machine.rs:204-209 | for x, y below VF: succeeds exactly when Vx ≥ Vy; the new Vx plus Vy is the old Vx; VF = 1 iff Vx > Vy and VF = 0 iff they are equal |
| Arithmetic.Op8xy6 | src/virtual_machine.rs:211-216 | for distinct x, y below VF: Vy receives the old Vx; 2·Vx' + VF = old Vx with VF a bit; no other register changes. For x = y below VF: Vx' = Vx div 2 and VF = Vx' mod 2, which is bit 1 of the old Vx |
| Arithmetic.Op8xy7 | src/virtual_machine.rs:218-224 | for x, y below VF: succeeds exactly when Vy ≥ Vx; Vx' + Vx = Vy; VF = 1 iff Vy > Vx and 0 iff equal; only Vx and VF change |
| Arithmetic.Op8xyE | src/virtual_machine.rs:226-231 | for distinct x, y below VF: Vy receives the old Vx; Vx' + 256·VF = 2·(old Vx) with VF a bit. For x = y below VF: Vx' = 2·Vx mod 256 and VF = Vx' div 128, which is bit 6 of the old Vx |
| Arithmetic.OpCxkk | src/virtual_machine.rs:250-253 | each bit of the new Vx is the random byte's bit AND the kk bit; only Vx changes |
| Arithmetic.CxkkRange | src/virtual_machine.rs:250-253 | the values Cxkk can store are exactly the bytes whose set bits are all set in kk |
| Timers.OpAnnn | src/virtual_machine.rs:240-243 | only I changes, to nnn |
| Timers.OpFx07 | src/virtual_machine.rs:295-298 | panics on x ≥ 16; Vx := delay timer; nothing else changes |
| Timers.OpFx0A | src/virtual_machine.rs:300-311 | never completes: hangs exactly when no key is down, and otherwise panics, at the register write when x ≥ 16 or at `todo!` |
| Timers.OpFx15 | src/virtual_machine.rs:313-316 | delay timer := Vx and nothing else changes |
| Timers.OpFx18 | src/virtual_machine.rs:318-321 | sound timer := Vx and nothing else changes |
| Timers.DelayTimerRoundTrip | src/virtual_machine.rs:295-316 | Fx07 straight after Fx15 on the same register changes nothing |
| Timers.DelayRegisterRoundTrip | src/virtual_machine.rs:295-316 | Fx15 straight after Fx07 on the same register changes nothing |
| Timers.OpFx1E | src/virtual_machine.rs:323-328 | succeeds exactly when x < 16 and I + Vx fits in a u16; I' = I + Vx; VF = 1 iff I' > 0xFFF; nothing else changes |
| Timers.OpFx29 | src/virtual_machine.rs:330-333 | always panics |
| Sprite.DrawFrom | src/virtual_machine.rs:264-279 | the two pixel loops as written, one step per sprite bit with the single shared bitmask; once a collision is recorded it stays recorded |
| Sprite.DrawFromEffect | src/virtual_machine.rs:262-280 | the pixel loop changes only pixels of the sprite's clipped on-screen box, and reports a collision exactly when one of them went from lit to dark |
| Sprite.DrawFromToggles | src/virtual_machine.rs:264-279 | the loop's frame buffer is the old one with a list of (pixel, bit) toggles XORed in, a list that does not depend on the screen |
| Sprite.DrawFromFlip | src/virtual_machine.rs:264-279 | the loop is XOR-linear: flipping one pixel before the draw flips the same pixel after it |
| Sprite.DrawFromTwice | src/virtual_machine.rs:264-279 | drawing the same sprite at the same place twice restores the frame buffer |
| Sprite.OpDxyn | src/virtual_machine.rs:255-281 | succeeds exactly when x, y < 16 and I ≤ n ≤ 4096; sets `update_display`; changes only pixels in the sprite box anchored at (Vx mod 64, Vy mod 32), and VF; VF = 1 iff some lit pixel went dark |
| Sprite.DxynTwiceRestores | src/virtual_machine.rs:255-281 | when neither coordinate register is VF, running the same Dxyn twice succeeds and restores the frame buffer |
| Sprite.DxynPanicsAboveSixteen | src/virtual_machine.rs:263-264 | with a decoded n, any I ≥ 16, including the font at 0x50, makes Dxyn panic |
| Sequences.JumpThenFetch | src/virtual_machine.rs:53-73 | after 1nnn the next fetch decodes the word stored at nnn |
| Sequences.OffsetJumpIsShiftedJump | src/virtual_machine.rs:245-248 | Bnnn lands V0 past 1nnn and equals it when V0 = 0 |
| Sequences.LoadIndexThenAdd | src/virtual_machine.rs:240-243 | Annn then Fx1E leaves I = nnn + Vx |
| Sequences.LoadThenSkipEqual | src/virtual_machine.rs:161-164 | 6xkk then 3xkk with the same operands always skips |
| Sequences.CopyThenSkipEqual | src/virtual_machine.rs:171-174 | after 8xy0, 5xy0 on the same pair skips and 9xy0 does not |
| Sequences.AddImmediateTwice | src/virtual_machine.rs:166-169 | two 7xkk whose immediates sum to a byte add up as one 7xkk with that sum while Vx stays in the u8 range, and one of them panics beyond it |
| Sequences.AddImmediateTwiceOverflows | src/virtual_machine.rs:166-169 | for any two immediates, when Vx plus both exceeds 255, one of the two 7xkk panics |
| Sequences.XorTwiceRestores | src/virtual_machine.rs:186-189 | 8xy3 applied twice with x ≠ y restores the state |
| Sequences.AddThenSubtract | src/virtual_machine.rs:191-209 | 8xy5 undoes an 8xy4 that did not overflow |
| Sequences.ShiftLeftThenRight | src/virtual_machine.rs:211-231 | 8xy6 undoes 8xyE when the top bit of Vx was clear, leaving VF = 0 |
| Sequences.TimersLoadedTogether | src/virtual_machine.rs:313-321 | Fx15 and Fx18 commute and load both timers with the same value |
| Sequences.KeyEventThenSkip | src/virtual_machine.rs:75-117 | after a press of key Vx, Ex9E skips and ExA1 does not; after a release, the reverse |
| Sequences.ClearThenDrawNoCollision | src/virtual_machine.rs:119-122 | a draw on a freshly cleared screen reports no collision |
| Rendering.PointIndexRoundTrip | src/rendering.rs:39-41 | the point of buffer index i is (i mod 64, i div 64), and it maps back to i; every on-screen point maps to an index that maps back to it |
| Rendering.IndexOfIsPixelIndex | src/rendering.rs:39-41 | the buffer index a rendered point is read from is the index `op_Dxyn` writes that pixel at |
| Rendering.LitPoints | src/rendering.rs:35-44 | one on-screen point per lit cell and none for a dark one, in increasing buffer order, as many points as lit cells |
| Rendering.BuildRenderer | src/rendering.rs:28-32 | a new renderer draws white on black on its canvas |
| Rendering.GetColors | src/rendering.rs:53-66 | the named palettes give their colour pairs, any other name gives white on black, and only the colours change |
| Rendering.UnknownPaletteIsMono | src/rendering.rs:58-62 | an unknown name behaves as "mono", which is the initial pair |
| Rendering.PaletteDependsOnNameOnly | src/rendering.rs:53-66 | the chosen colours depend on the name alone, and choosing the same palette twice is the same as once |
| Findings.AddOverflowBreaksCarryLaw | src/virtual_machine.rs:195-197 | as written, every overflowing 8xy4 breaks Vx' + 256·VF = Vx + Vy |
| Findings.AddFFPlusOne | src/virtual_machine.rs:195-197 | 0xFF + 0x01 stores 1 as written and 0 when corrected |
| Findings.Op8xy4Wrapping | src/virtual_machine.rs:191-202 | the corrected 8xy4 satisfies Vx' + 256·VF = Vx + Vy, with VF a bit |
| Findings.FirstRowExhaustsMask | src/virtual_machine.rs:262-278 | once the first sprite row is drawn in full, the single bitmask is 0: the pixels the loop draws are the first row's followed by zero bits only |
| Findings.FirstRowAsIntended | src/virtual_machine.rs:262-278 | within the first sprite row the shared bitmask is still 0x80 >> column, so the as-written loop and the corrected loop agree on that row, frame buffer and collision flag alike |
| Findings.FirstRowVideo | src/virtual_machine.rs:262-278 | when the first sprite row lies on screen, the as-written loops leave the frame buffer the corrected loop leaves for that row alone |
| Findings.DxynDrawsFirstRow | src/virtual_machine.rs:255-281 | as written, a Dxyn whose first row lies on screen gives exactly the state the corrected Dxyn gives for a one-row sprite at I |
| Findings.DxynFirstRowPixels | src/virtual_machine.rs:255-281 | as written, with the first row on screen, pixel x0 + c of screen row y0 becomes old XOR bit 7 − c of memory[I], and every other pixel keeps its value |
| Findings.DxynDrawsOnlyFirstRow | src/virtual_machine.rs:262-278 | as written, a Dxyn whose first row is fully on screen changes pixels in that one screen row only |
| Findings.DrawRowsFrom | src/virtual_machine.rs:264-279 | the pixel loops with the bitmask restarting at 0x80 on every row; once a collision is recorded it stays recorded |
| Findings.DrawRowsFromPattern | src/virtual_machine.rs:262-280 | the corrected loop XORs each pixel of the sprite box with its own sprite bit (bit 7 − column of its row) and leaves all others alone |
| Findings.DrawRowsFromEffect | src/virtual_machine.rs:262-280 | the corrected loop keeps the source's collision rule: the flag is set exactly when a lit pixel of the box went dark |
| Findings.OpDxynFixed | src/virtual_machine.rs:255-281 | the corrected Dxyn reads `memory[I..I+n]` and panics only past the end of memory; every box pixel becomes old XOR sprite bit; VF = 1 iff some lit pixel went dark |
| Findings.FixedDrawReadsFont | src/virtual_machine.rs:263 | a five-byte draw from the font area panics as written and succeeds when corrected |
| Findings.Store | src/virtual_machine.rs:13 | a checked register write panics exactly outside the file and otherwise changes only the written entry |
| Findings.Load | src/virtual_machine.rs:13 | a checked register read panics exactly outside the file and otherwise gives the entry |
| Findings.AddOnFile | src/virtual_machine.rs:191-202 | 8xy4 on a register file of any length succeeds exactly when x, y and 0xF all index the file |
| Findings.DeclaredFileRejectsAdd | src/virtual_machine.rs:13 | on the declared eight-entry file 8xy4 panics for every x and y, even V0..V7, because its flag write indexes entry 0xF |
| Findings.FullFileAddIsOp8xy4 | src/virtual_machine.rs:191-202 | on a sixteen-entry file the checked 8xy4 succeeds exactly when Arithmetic.Op8xy4 does, with the same registers |
| Findings.ShiftInPlaceLosesBit | src/virtual_machine.rs:211-231 | as written, with x = y below VF, 8xy6 keeps 2·Vx' + VF = Vx exactly when bits 0 and 1 of Vx agree, and 8xyE keeps Vx' + 256·VF = 2·Vx exactly when bits 6 and 7 agree |
| Findings.Op8xy6Fixed | src/virtual_machine.rs:211-216 | 8xy6 reading Vx before any write: 2·Vx' + VF = old Vx with VF a bit for every x below VF and every y, and Vy receives the old Vx when y is a third register |
| Findings.Op8xyEFixed | src/virtual_machine.rs:226-231 | 8xyE reading Vx before any write: Vx' + 256·VF = 2·(old Vx) with VF a bit for every x below VF and every y, and Vy receives the old Vx when y is a third register |
| Findings.ShiftFixedAgrees | src/virtual_machine.rs:211-231 | for distinct x, y below VF the corrected shifts equal the as-written ones |

## Left out

- `src/main.rs`, `src/audio.rs` and `build.rs` are not part of this model: the event loop, argument parsing, audio and the build script.
- Window and canvas creation, drawing calls and presenting are SDL calls. The canvas is an opaque handle and `LitPoints` models only the list of points handed to it.
- The `eprintln!` warning of `get_colors` is output only and is not modelled.
- The thread-local random generator of `op_Cxkk` is not modelled. Its byte is a parameter of `OpCxkk`.
- Nothing in the modelled code counts the timers down, and no dispatcher from `Opcodes` to handler exists in `src/virtual_machine.rs`. Neither is modelled.
- Timers.OpFx0A: the key index it would store is not modelled, because the handler always goes on to `todo!` and never returns a state.
- Timers.OpFx29: only the panic is modelled; the font lookup it describes is not implemented in the source.
- Fx33, Fx55 and Fx65 have no handler in the source and are not modelled.
- The register file has sixteen entries instead of the eight declared at `src/virtual_machine.rs:13`, so that the handlers behave as their comments describe. With eight entries the constant flag index 0xF is past the end, which rustc's deny-by-default `unconditional_panic` lint rejects at build time. Findings models the run-time panic such a build would have if that lint were allowed.
- Arithmetic.Op8xy5: the full contract is stated for x, y below VF. With VF as an operand, only the panic on indices ≥ 16 is stated, because the flag write then changes the operand.
- Arithmetic.Op8xy7: the full contract is stated for x, y below VF. With VF as an operand, only the panic on indices ≥ 16 is stated, because the flag write then changes the operand.
- Sprite.OpDxyn: the contract bounds which pixels may change and gives VF, but not the new pixel values. Findings.DxynFirstRowPixels gives them when the first sprite row lies wholly on screen. When the right edge clips that row, the shared bitmask is not used up by the first row, and the values of such a draw are not stated.
- Arithmetic.Op8xy6: the result is stated for x and y below VF, distinct or equal. With VF as an operand, only success is stated, because the flag write then overwrites the copy in Vy or the shifted Vx.
- Arithmetic.Op8xyE: the result is stated for x and y below VF, distinct or equal. With VF as an operand, only success is stated, because the flag write then overwrites the copy in Vy or the shifted Vx.

## Findings

| source | as written | input that shows it | evidently intended | confidence | as-written member | corrected member |
|---|---|---|---|---|---|---|
| src/virtual_machine.rs:196 | an overflowing 8xy4 stores `result % 255` | V0 = 0xFF, V1 = 0x01, 8014: V0 becomes 1 | wrap modulo 256, so V0 becomes 0 and Vx + 256·VF is the exact sum | high, not executed | Findings.AddOverflowBreaksCarryLaw | Findings.Op8xy4Wrapping |
| src/virtual_machine.rs:263 | the sprite is `memory[I..n]`, from I up to the row count | I = 0x50 (a font glyph), D005: the slice start exceeds its end and the handler panics | `memory[I..I + n]`, n rows starting at I | high, not executed | Sprite.DxynPanicsAboveSixteen | Findings.OpDxynFixed |
| src/virtual_machine.rs:262-278 | one bitmask for the whole sprite, halved per drawn pixel and never reset | I = 0, memory[0..2] = 0xFF 0xFF, V0 = V1 = 0, D012: the first row shifts the mask to 0, so screen row 1 stays dark | the mask restarts at 0x80 on every row | high, not executed | Findings.DxynDrawsFirstRow | Findings.DrawRowsFromPattern |
| src/virtual_machine.rs:13 | `registers: [u8; 8]` | every flag-setting instruction, such as 8014, writes `registers[0xF]`, a constant index past the declared length; rustc's deny-by-default `unconditional_panic` lint rejects that at build time, and it would panic at run time only if the lint were allowed | sixteen registers, V0 to VF | high, not executed | Findings.DeclaredFileRejectsAdd | Findings.FullFileAddIsOp8xy4 |
| src/virtual_machine.rs:215 | 8xy6 takes VF from `registers[y] & 1` after Vx has been shifted | V0 = 2, 8006: V0 becomes 1 and VF becomes 1, but the bit shifted out is 0 | VF holds the bit shifted out, as the comment on line 212 says, also when x = y | high, not executed | Findings.ShiftInPlaceLosesBit | Findings.Op8xy6Fixed |
| src/virtual_machine.rs:230 | 8xyE takes VF from bit 7 of `registers[y]` after Vx has been shifted | V0 = 0x40, 800E: V0 becomes 0x80 and VF becomes 1, but the bit shifted out is 0 | VF holds the bit shifted out, as the comment on line 227 says, also when x = y | high, not executed | Findings.ShiftInPlaceLosesBit | Findings.Op8xyEFixed |

=== FILE: arithmetic.dfy ===
/** The register handlers 6xkk, 7xkk, 8xy0..8xyE and Cxkk
    (src/virtual_machine.rs). Each reads its register operands through
    `registers[x]`, which panics for a register number past the file, and the
    u8 `+=` and `-=` panic on overflow as Rust's debug profile does. The
    handlers write VF last where the source does, so a flag overwrites a
    result stored in VF. */
module Arithmetic {
  import opened Outcomes
  import opened Machine
  import opened Bits

  /** 6xkk LD Vx, byte */
  function Op6xkk(s: VM, op: Opcodes): (r: Outcome<VM>)
    ensures !r.Hang?
    ensures r.Ok? <==> op.x < RegisterCount
    ensures r.Ok? ==> r.value.registers[op.x] == op.nn
    ensures r.Ok? ==> RegistersExcept(s, r.value, {op.x})
  {
    if op.x >= RegisterCount then Panic
    else Ok(s.(registers := s.registers[op.x := op.nn]))
  }

  /** 7xkk ADD Vx, byte: u8 `+=`, no flag */
  function Op7xkk(s: VM, op: Opcodes): (r: Outcome<VM>)
    ensures !r.Hang?
    ensures r.Ok? <==> op.x < RegisterCount && s.registers[op.x] as int + op.nn < 256
    ensures r.Ok? ==> r.value.registers[op.x] == s.registers[op.x] as int + op.nn
    ensures r.Ok? ==> RegistersExcept(s, r.value, {op.x})
  {
    var vx :- Reg(s, op.x);
    if vx as int + op.nn > 255 then Panic
    else Ok(s.(registers := s.registers[op.x := vx + op.nn]))
  }

  /** 8xy0 LD Vx, Vy */
  function Op8xy0(s: VM, op: Opcodes): (r: Outcome<VM>)
    ensures !r.Hang?
    ensures r.Ok? <==> op.x < RegisterCount && op.y < RegisterCount
    ensures r.Ok? ==> r.value.registers[op.x] == s.registers[op.y]
    ensures r.Ok? ==> RegistersExcept(s, r.value, {op.x})
  {
    var vy :- Reg(s, op.y);
    if op.x >= RegisterCount then Panic
    else Ok(s.(registers := s.registers[op.x := vy]))
  }

  /** The bitwise handlers 8xy1, 8xy2 and 8xy3 share one shape: Vx op= Vy */
  function Combine(s: VM, op: Opcodes, bitOp: BitOp): (r: Outcome<VM>)
    ensures !r.Hang?
    ensures r.Ok? <==> op.x < RegisterCount && op.y < RegisterCount
    ensures r.Ok? ==> forall k :: 0 <= k < 8 ==>
              Bit(r.value.registers[op.x], k) == bitOp.Apply(Bit(s.registers[op.x], k), Bit(s.registers[op.y], k))
    ensures r.Ok? ==> RegistersExcept(s, r.value, {op.x})
  {
    var vy :- Reg(s, op.y);
    var vx :- Reg(s, op.x);
    var v := Bitwise(bitOp, vx, vy, 8);
    assert forall k :: 0 <= k < 8 ==> Bit(v, k) == bitOp.Apply(Bit(vx, k), Bit(vy, k)) by {
      forall k | 0 <= k < 8 {
        BitwiseBit(bitOp, vx, vy, 8, k);
      }
    }
    Ok(s.(registers := s.registers[op.x := v]))
  }

  /** 8xy1 OR Vx, Vy; VF is left alone */
  function Op8xy1(s: VM, op: Opcodes): (r: Outcome<VM>)
    ensures !r.Hang?
    ensures r.Ok? <==> op.x < RegisterCount && op.y < RegisterCount
    ensures r.Ok? ==> forall k :: 0 <= k < 8 ==>
              Bit(r.value.registers[op.x], k) == (Bit(s.registers[op.x], k) || Bit(s.registers[op.y], k))
    ensures r.Ok? ==> RegistersExcept(s, r.value, {op.x})
  {
    Combine(s, op, OrOp)
  }

  /** 8xy2 AND Vx, Vy; VF is left alone */
  function Op8xy2(s: VM, op: Opcodes): (r: Outcome<VM>)
    ensures !r.Hang?
    ensures r.Ok? <==> op.x < RegisterCount && op.y < RegisterCount
    ensures r.Ok? ==> forall k :: 0 <= k < 8 ==>
              Bit(r.value.registers[op.x], k) == (Bit(s.registers[op.x], k) && Bit(s.registers[op.y], k))
    ensures r.Ok? ==> RegistersExcept(s, r.value, {op.x})
  {
    Combine(s, op, AndOp)
  }

  /** 8xy3 XOR Vx, Vy; VF is left alone */
  function Op8xy3(s: VM, op: Opcodes): (r: Outcome<VM>)
    ensures !r.Hang?
    ensures r.Ok? <==> op.x < RegisterCount && op.y < RegisterCount
    ensures r.Ok? ==> forall k :: 0 <= k < 8 ==>
              Bit(r.value.registers[op.x], k) == (Bit(s.registers[op.x], k) != Bit(s.registers[op.y], k))
    ensures r.Ok? ==> RegistersExcept(s, r.value, {op.x})
  {
    Combine(s, op, XorOp)
  }

  /** 8xy4 ADD Vx, Vy: the sum is formed in u32; on overflow the source
      stores `result % 255` (not the mod-256 wrap) and sets VF. */
  function Op8xy4(s: VM, op: Opcodes): (r: Outcome<VM>)
    ensures !r.Hang?
    ensures r.Ok? <==> op.x < RegisterCount && op.y < RegisterCount
    ensures r.Ok? ==> RegistersExcept(s, r.value, {op.x, FlagRegister})
    ensures r.Ok? ==> r.value.registers[FlagRegister] ==
                      (if s.registers[op.x] as int + s.registers[op.y] > 255 then 1 else 0)
    ensures r.Ok? && op.x != FlagRegister && s.registers[op.x] as int + s.registers[op.y] <= 255 ==>
              r.value.registers[op.x] == s.registers[op.x] as int + s.registers[op.y]
    ensures r.Ok? && op.x != FlagRegister && s.registers[op.x] as int + s.registers[op.y] > 255 ==>
              r.value.registers[op.x] == (s.registers[op.x] as int + s.registers[op.y]) % 255
  {
    var vx :- Reg(s, op.x);
    var vy :- Reg(s, op.y);
    var result := vx as int + vy;
    if result > 255 then
      Ok(s.(registers := s.registers[op.x := result % 255][FlagRegister := 1]))
    else
      Ok(s.(registers := s.registers[op.x := result][FlagRegister := 0]))
  }

  /** 8xy5 SUB Vx, Vy: VF := (Vx > Vy), then the u8 `Vx -= Vy`, which reads
      the registers after the flag write and panics when it would go negative. */
  function Op8xy5(s: VM, op: Opcodes): (r: Outcome<VM>)
    ensures !r.Hang?
    ensures op.x >= RegisterCount || op.y >= RegisterCount ==> r == Panic
    ensures op.x < FlagRegister && op.y < FlagRegister ==>
              (r.Ok? <==> s.registers[op.x] >= s.registers[op.y])
    ensures r.Ok? && op.x < FlagRegister && op.y < FlagRegister ==>
              && RegistersExcept(s, r.value, {op.x, FlagRegister})
              && r.value.registers[op.x] as int + s.registers[op.y] == s.registers[op.x]
              && (r.value.registers[FlagRegister] == 1 <==> s.registers[op.x] > s.registers[op.y])
              && (r.value.registers[FlagRegister] == 0 <==> s.registers[op.x] == s.registers[op.y])
  {
    var vx :- Reg(s, op.x);
    var vy :- Reg(s, op.y);
    var flagged := s.registers[FlagRegister := if vx > vy then 1 else 0];
    if flagged[op.x] < flagged[op.y] then Panic
    else Ok(s.(registers := flagged[op.x := flagged[op.x] - flagged[op.y]]))
  }

  /** 8xy6 SHR: Vy := Vx, then Vx >>= 1, then VF := Vy & 1 */
  function Op8xy6(s: VM, op: Opcodes): (r: Outcome<VM>)
    ensures !r.Hang?
    ensures r.Ok? <==> op.x < RegisterCount && op.y < RegisterCount
    ensures r.Ok? && op.x < FlagRegister && op.y < FlagRegister && op.x != op.y ==>
              && RegistersExcept(s, r.value, {op.x, op.y, FlagRegister})
              && r.value.registers[op.y] == s.registers[op.x]
              && 2 * (r.value.registers[op.x] as int) + r.value.registers[FlagRegister] == s.registers[op.x]
              && r.value.registers[FlagRegister] < 2
    ensures r.Ok? && op.x == op.y < FlagRegister ==>
              && RegistersExcept(s, r.value, {op.x, FlagRegister})
              && r.value.registers[op.x] == s.registers[op.x] / 2
              && r.value.registers[FlagRegister] == r.value.registers[op.x] % 2
  {
    var vx :- Reg(s, op.x);
    if op.y >= RegisterCount then Panic
    else
      var copied := s.registers[op.y := vx];
      var shifted := copied[op.x := copied[op.x] / 2];
      Ok(s.(registers := shifted[FlagRegister := shifted[op.y] % 2]))
  }

  /** 8xy7 SUBN: VF := (Vy > Vx), then Vx := Vy - Vx in u8, read after the
      flag write, which panics when it would go negative. */
  function Op8xy7(s: VM, op: Opcodes): (r: Outcome<VM>)
    ensures !r.Hang?
    ensures op.x >= RegisterCount || op.y >= RegisterCount ==> r == Panic
    ensures op.x < FlagRegister && op.y < FlagRegister ==>
              (r.Ok? <==> s.registers[op.y] >= s.registers[op.x])
    ensures r.Ok? && op.x < FlagRegister && op.y < FlagRegister ==>
              && RegistersExcept(s, r.value, {op.x, FlagRegister})
              && r.value.registers[op.x] as int + s.registers[op.x] == s.registers[op.y]
              && (r.value.registers[FlagRegister] == 1 <==> s.registers[op.y] > s.registers[op.x])
              && (r.value.registers[FlagRegister] == 0 <==> s.registers[op.y] == s.registers[op.x])
  {
    var vx :- Reg(s, op.x);
    var vy :- Reg(s, op.y);
    var flagged := s.registers[FlagRegister := if vy > vx then 1 else 0];
    if flagged[op.y] < flagged[op.x] then Panic
    else Ok(s.(registers := flagged[op.x := flagged[op.y] - flagged[op.x]]))
  }

  /** 8xyE SHL: Vy := Vx, then Vx <<= 1 (u8, the top bit falls off), then
      VF := (Vy & 0x80) >> 7 */
  function Op8xyE(s: VM, op: Opcodes): (r: Outcome<VM>)
    ensures !r.Hang?
    ensures r.Ok? <==> op.x < RegisterCount && op.y < RegisterCount
    ensures r.Ok? && op.x < FlagRegister && op.y < FlagRegister && op.x != op.y ==>
              && RegistersExcept(s, r.value, {op.x, op.y, FlagRegister})
              && r.value.registers[op.y] == s.registers[op.x]
              && r.value.registers[op.x] as int + 256 * (r.value.registers[FlagRegister] as int) == 2 * (s.registers[op.x] as int)
              && r.value.registers[FlagRegister] < 2
    ensures r.Ok? && op.x == op.y < FlagRegister ==>
              && RegistersExcept(s, r.value, {op.x, FlagRegister})
              && r.value.registers[op.x] == 2 * (s.registers[op.x] as int) % 256
              && r.value.registers[FlagRegister] == r.value.registers[op.x] / 128
  {
    var vx :- Reg(s, op.x);
    if op.y >= RegisterCount then Panic
    else
      var copied := s.registers[op.y := vx];
      var shifted := copied[op.x := (copied[op.x] as int) * 2 % 256];
      Ok(s.(registers := shifted[FlagRegister := shifted[op.y] / 128]))
  }

  /** Cxkk RND: Vx := random & kk, with the generator's byte as an argument */
  function OpCxkk(s: VM, op: Opcodes, random: Byte): (r: Outcome<VM>)
    ensures !r.Hang?
    ensures r.Ok? <==> op.x < RegisterCount
    ensures r.Ok? ==> RegistersExcept(s, r.value, {op.x})
    ensures r.Ok? ==> forall k :: 0 <= k < 8 ==>
              Bit(r.value.registers[op.x], k) == (Bit(random, k) && Bit(op.nn, k))
  {
    if op.x >= RegisterCount then Panic
    else
      var v := Bitwise(AndOp, random, op.nn, 8);
      assert forall k :: 0 <= k < 8 ==> Bit(v, k) == (Bit(random, k) && Bit(op.nn, k)) by {
        forall k | 0 <= k < 8 {
          BitwiseBit(AndOp, random, op.nn, 8, k);
        }
      }
      Ok(s.(registers := s.registers[op.x := v]))
  }

  /** The values Cxkk can leave in Vx are exactly the bytes whose set bits
      all lie within kk: no result has a bit outside kk, and every such byte
      comes out for some random byte. */
  lemma {:induction false} CxkkRange(s: VM, op: Opcodes, v: Byte)
    requires op.x < RegisterCount
    ensures (forall k :: 0 <= k < 8 && Bit(v, k) ==> Bit(op.nn, k)) ==>
              OpCxkk(s, op, v) == Ok(s.(registers := s.registers[op.x := v]))
    ensures (exists random: Byte :: OpCxkk(s, op, random) == Ok(s.(registers := s.registers[op.x := v]))) ==>
              (forall k :: 0 <= k < 8 && Bit(v, k) ==> Bit(op.nn, k))
  {
    if forall k :: 0 <= k < 8 && Bit(v, k) ==> Bit(op.nn, k) {
      var w := OpCxkk(s, op, v).value.registers[op.x];
      assert forall k :: 0 <= k < 8 ==> Bit(w, k) == Bit(v, k);
      assert Pow2(8) == 256;
      BitsDetermine(w, v, 8);
    }
  }
}

=== FILE: bits.dfy ===
/** Bitwise operators on unsigned integers, defined bit by bit from the low
    end, so that a byte stays an ordinary integer for the arithmetic handlers
    and the `|`, `&`, `^` of the Rust source can still be stated per bit. */
module Bits {

  function Pow2(k: nat): (p: nat)
    ensures p >= 1
  {
    if k == 0 then 1 else 2 * Pow2(k - 1)
  }

  /** Bit `k` of `v`, counting from the least significant */
  predicate Bit(v: nat, k: nat) {
    if k == 0 then v % 2 == 1 else Bit(v / 2, k - 1)
  }

  datatype BitOp = OrOp | AndOp | XorOp {
    predicate Apply(a: bool, b: bool) {
      match this
      case OrOp => a || b
      case AndOp => a && b
      case XorOp => a != b
    }
  }

  /** The low `width` bits of `a op b` */
  function Bitwise(op: BitOp, a: nat, b: nat, width: nat): (r: nat)
    ensures r < Pow2(width)
  {
    if width == 0 then 0
    else 2 * Bitwise(op, a / 2, b / 2, width - 1) + (if op.Apply(a % 2 == 1, b % 2 == 1) then 1 else 0)
  }

  /** Each bit of the result is the operator applied to the operands' bits */
  lemma {:induction false} BitwiseBit(op: BitOp, a: nat, b: nat, width: nat, k: nat)
    requires k < width
    ensures Bit(Bitwise(op, a, b, width), k) == op.Apply(Bit(a, k), Bit(b, k))
  {
    var rest := Bitwise(op, a / 2, b / 2, width - 1);
    var r := Bitwise(op, a, b, width);
    assert r / 2 == rest && (r % 2 == 1 <==> op.Apply(a % 2 == 1, b % 2 == 1));
    if k > 0 {
      BitwiseBit(op, a / 2, b / 2, width - 1, k - 1);
    }
  }

  /** A number below 2^width is determined by its low `width` bits */
  lemma {:induction false} BitsDetermine(a: nat, b: nat, width: nat)
    requires a < Pow2(width) && b < Pow2(width)
    requires forall k :: 0 <= k < width ==> Bit(a, k) == Bit(b, k)
    ensures a == b
  {
    if width == 0 {
    } else {
      assert Bit(a, 0) == Bit(b, 0);
      forall k | 0 <= k < width - 1
        ensures Bit(a / 2, k) == Bit(b / 2, k)
      {
        assert Bit(a, k + 1) == Bit(b, k + 1);
      }
      BitsDetermine(a / 2, b / 2, width - 1);
    }
  }

  /** `a & b` on u8 */
  function And8(a: nat, b: nat): (r: nat)
    ensures r < 256
  {
    Bitwise(AndOp, a, b, 8)
  }

  /** Masking with zero leaves nothing */
  lemma {:induction false} AndZero(a: nat, width: nat)
    ensures Bitwise(AndOp, a, 0, width) == 0
  {
    if width > 0 {
      AndZero(a / 2, width - 1);
    }
  }

  /** Masking with the single bit j keeps something exactly when bit j is set */
  lemma {:induction false} AndSingleBit(a: nat, j: nat, width: nat)
    requires j < width
    ensures Bitwise(AndOp, a, Pow2(j), width) > 0 <==> Bit(a, j)
  {
    if j == 0 {
      AndZero(a / 2, width - 1);
    } else {
      assert Pow2(j) / 2 == Pow2(j - 1) && Pow2(j) % 2 == 0;
      AndSingleBit(a / 2, j - 1, width - 1);
    }
  }
}

=== FILE: findings.dfy ===
/** Five places where src/virtual_machine.rs evidently does not do what its
    comments say. For each, a lemma about the handler as written exhibits the
    discrepancy, and a corrected handler is proved to have the intended
    property. The handlers in `Arithmetic` and `Sprite` stay as written. */
module Findings {
  import opened Outcomes
  import opened Machine
  import opened Bits
  import opened Arithmetic
  import opened Sprite

  // 8xy4: `result % 255` instead of a wrap modulo 256

  /** As written, no overflowing addition satisfies the carry law
      Vx' + 256 * VF == Vx + Vy: every stored value is off. */
  lemma AddOverflowBreaksCarryLaw(s: VM, op: Opcodes)
    requires op.x < FlagRegister && op.y < RegisterCount
    requires s.registers[op.x] as int + s.registers[op.y] > 255
    ensures Op8xy4(s, op).Ok?
    ensures Op8xy4(s, op).value.registers[op.x] as int + 256 * (Op8xy4(s, op).value.registers[FlagRegister] as int)
            != s.registers[op.x] as int + s.registers[op.y]
  {
  }

  /** The smallest case: 0xFF + 0x01 leaves 1 in Vx instead of 0 */
  lemma AddFFPlusOne(s: VM, op: Opcodes)
    requires op.x == 0 && op.y == 1 && s.registers[0] == 0xFF && s.registers[1] == 0x01
    ensures Op8xy4(s, op).Ok? && Op8xy4(s, op).value.registers[0] == 1
    ensures Op8xy4Wrapping(s, op).Ok? && Op8xy4Wrapping(s, op).value.registers[0] == 0
  {
  }

  /** 8xy4 with the u8 wrap the comment describes */
  function Op8xy4Wrapping(s: VM, op: Opcodes): (r: Outcome<VM>)
    ensures !r.Hang?
    ensures r.Ok? <==> op.x < RegisterCount && op.y < RegisterCount
    ensures r.Ok? ==> RegistersExcept(s, r.value, {op.x, FlagRegister})
    ensures r.Ok? ==> r.value.registers[FlagRegister] < 2
    ensures r.Ok? && op.x != FlagRegister ==>
              r.value.registers[op.x] as int + 256 * (r.value.registers[FlagRegister] as int)
              == s.registers[op.x] as int + s.registers[op.y]
  {
    var vx :- Reg(s, op.x);
    var vy :- Reg(s, op.y);
    var result := vx as int + vy;
    Ok(s.(registers := s.registers[op.x := result % 256][FlagRegister := if result > 255 then 1 else 0]))
  }

  // Dxyn: the single bitmask is never reset between sprite rows

  /** With the bitmask exhausted, the rest of the loop draws only zero bits,
      which change nothing */
  lemma {:induction false} ExhaustedMaskDrawsNothing(sprite: seq<Byte>, x0: nat, y0: nat, k: nat, video: Video)
    requires x0 < ScreenWidth && y0 < ScreenHeight
    ensures ApplyToggles(video, TogglesFrom(sprite, x0, y0, k, 0)) == video
    decreases 8 * |sprite| - k
  {
    if k < 8 * |sprite| {
      AndZero(sprite[k / 8], 8);
      if !(y0 + k / 8 > 31 || x0 + k % 8 > 63) {
        var index := PixelIndex(x0 + k % 8, y0 + k / 8);
        TogglesDrawn(sprite, x0, y0, k, 0);
        ApplyCons(video, Toggle(index, false), TogglesFrom(sprite, x0, y0, k + 1, 0));
        assert Flip(video, index, false) == video;
      }
      ExhaustedMaskDrawsNothing(sprite, x0, y0, k + 1, video);
    }
  }

  /** When the first sprite row lies wholly on screen, its eight pixels use
      up the bitmask: what the loop draws is the first row followed by
      zero bits only. */
  lemma {:induction false} FirstRowExhaustsMask(sprite: seq<Byte>, x0: nat, y0: nat, k: nat, mask: nat)
    requires x0 + 8 <= ScreenWidth && y0 < ScreenHeight && |sprite| >= 1
    requires k <= 8 && mask < Pow2(8 - k)
    ensures TogglesFrom(sprite, x0, y0, k, mask)
         == TogglesFrom(sprite[..1], x0, y0, k, mask) + TogglesFrom(sprite, x0, y0, 8, 0)
    decreases 8 - k
  {
    if k < 8 {
      var t := Toggle(PixelIndex(x0 + k, y0), And8(sprite[0], mask) > 0);
      assert sprite[..1][0] == sprite[0];
      TogglesDrawn(sprite, x0, y0, k, mask);
      TogglesDrawn(sprite[..1], x0, y0, k, mask);
      FirstRowExhaustsMask(sprite, x0, y0, k + 1, mask / 2);
      assert [t] + (TogglesFrom(sprite[..1], x0, y0, k + 1, mask / 2) + TogglesFrom(sprite, x0, y0, 8, 0))
          == ([t] + TogglesFrom(sprite[..1], x0, y0, k + 1, mask / 2)) + TogglesFrom(sprite, x0, y0, 8, 0);
    }
  }

  /** As written, a sprite drawn with its first row wholly on screen changes
      pixels in that first screen row only: every later sprite row is blank. */
  lemma DxynDrawsOnlyFirstRow(s: VM, op: Opcodes)
    requires OpDxyn(s, op).Ok?
    requires s.registers[op.x] % ScreenWidth + 8 <= ScreenWidth
    ensures forall index :: 0 <= index < ScreenSize && OpDxyn(s, op).value.video[index] != s.video[index] ==>
              index / ScreenWidth == s.registers[op.y] % ScreenHeight
  {
    var x0 := s.registers[op.x] % ScreenWidth;
    var y0 := s.registers[op.y] % ScreenHeight;
    var sprite := s.memory[s.indexRegister..op.n];
    if |sprite| >= 1 {
      FirstRowExhaustsMask(sprite, x0, y0, 0, 0x80);
      var first := TogglesFrom(sprite[..1], x0, y0, 0, 0x80);
      ApplyAppend(s.video, first, TogglesFrom(sprite, x0, y0, 8, 0));
      ExhaustedMaskDrawsNothing(sprite, x0, y0, 8, ApplyToggles(s.video, first));
      DrawFromToggles(sprite, x0, y0, 0, s.video, false, 0x80);
      DrawFromToggles(sprite[..1], x0, y0, 0, s.video, false, 0x80);
      DrawFromEffect(sprite[..1], x0, y0, 0, s.video, false, 0x80);
    } else {
      DrawFromEffect(sprite, x0, y0, 0, s.video, false, 0x80);
    }
  }

  /** Within one sprite row the as-written mask is still 0x80 >> column, so
      that row is drawn as intended */
  lemma {:induction false} FirstRowAsIntended(sprite: seq<Byte>, x0: nat, y0: nat, k: nat, video: Video,
                                              collided: bool, mask: nat)
    requires |sprite| == 1 && x0 + 8 <= ScreenWidth && y0 < ScreenHeight
    requires k <= 8 && (k < 8 ==> mask == Pow2(7 - k))
    ensures DrawFrom(sprite, x0, y0, k, video, collided, mask) == DrawRowsFrom(sprite, x0, y0, k, video, collided)
    decreases 8 - k
  {
    if k < 8 {
      var index := PixelIndex(x0 + k, y0);
      var bit := Bit(sprite[0], 7 - k);
      FirstRowStep(sprite, x0, y0, k, video, collided, mask);
      if k < 7 {
        HalfMask(k);
      }
      FirstRowAsIntended(sprite, x0, y0, k + 1, Flip(video, index, bit), collided || (video[index] && bit), mask / 2);
    }
  }

  /** One step of both loops within the first row: they draw the same bit
      into the same pixel */
  lemma FirstRowStep(sprite: seq<Byte>, x0: nat, y0: nat, k: nat, video: Video, collided: bool, mask: nat)
    requires |sprite| == 1 && x0 + 8 <= ScreenWidth && y0 < ScreenHeight
    requires k < 8 && mask == Pow2(7 - k)
    ensures var index := PixelIndex(x0 + k, y0);
            var bit := Bit(sprite[0], 7 - k);
            && DrawFrom(sprite, x0, y0, k, video, collided, mask)
               == DrawFrom(sprite, x0, y0, k + 1, Flip(video, index, bit), collided || (video[index] && bit), mask / 2)
            && DrawRowsFrom(sprite, x0, y0, k, video, collided)
               == DrawRowsFrom(sprite, x0, y0, k + 1, Flip(video, index, bit), collided || (video[index] && bit))
  {
    assert k / 8 == 0 && k % 8 == k;
    DrawnStep(sprite, x0, y0, k, video, collided, mask);
    RowsDrawnStep(sprite, x0, y0, k, video, collided);
    AndSingleBit(sprite[0], 7 - k, 8);
  }

  /** One step of the intended loop on a pixel inside the screen */
  lemma RowsDrawnStep(sprite: seq<Byte>, x0: nat, y0: nat, k: nat, video: Video, collided: bool)
    requires x0 < ScreenWidth && y0 < ScreenHeight && k < 8 * |sprite|
    requires y0 + k / 8 <= 31 && x0 + k % 8 <= 63
    ensures var index := PixelIndex(x0 + k % 8, y0 + k / 8);
            var bit := Bit(sprite[k / 8], 7 - k % 8);
            DrawRowsFrom(sprite, x0, y0, k, video, collided)
            == DrawRowsFrom(sprite, x0, y0, k + 1, Flip(video, index, bit), collided || (video[index] && bit))
  {
  }

  /** Halving the single-bit mask moves it one bit down */
  lemma HalfMask(k: nat)
    requires k < 7
    ensures Pow2(7 - k) / 2 == Pow2(7 - (k + 1))
  {
  }

  /** The as-written loops over a sprite whose first row lies on screen leave
      the frame buffer the intended loop leaves for that row alone */
  lemma FirstRowVideo(sprite: seq<Byte>, x0: nat, y0: nat, video: Video)
    requires x0 + 8 <= ScreenWidth && y0 < ScreenHeight && |sprite| >= 1
    ensures DrawFrom(sprite, x0, y0, 0, video, false, 0x80).0 == DrawRowsFrom(sprite[..1], x0, y0, 0, video, false).0
  {
    var first := sprite[..1];
    FirstRowExhaustsMask(sprite, x0, y0, 0, 0x80);
    ApplyAppend(video, TogglesFrom(first, x0, y0, 0, 0x80), TogglesFrom(sprite, x0, y0, 8, 0));
    ExhaustedMaskDrawsNothing(sprite, x0, y0, 8, ApplyToggles(video, TogglesFrom(first, x0, y0, 0, 0x80)));
    DrawFromToggles(sprite, x0, y0, 0, video, false, 0x80);
    DrawFromToggles(first, x0, y0, 0, video, false, 0x80);
    FirstRowAsIntended(first, x0, y0, 0, video, false, 0x80);
  }

  /** As written, a sprite whose first row lies wholly on screen is drawn as
      that row alone: the same state the corrected handler produces for a
      one-row sprite at I. */
  lemma DxynDrawsFirstRow(s: VM, op: Opcodes)
    requires OpDxyn(s, op).Ok?
    requires s.registers[op.x] % ScreenWidth + 8 <= ScreenWidth
    requires s.indexRegister < op.n
    ensures OpDxyn(s, op) == OpDxynFixed(s, op.(n := 1))
  {
    var sprite := s.memory[s.indexRegister..op.n];
    assert sprite[..1] == s.memory[s.indexRegister..s.indexRegister + 1];
    FirstRowVideo(sprite, s.registers[op.x] % ScreenWidth, s.registers[op.y] % ScreenHeight, s.video);
    var drawn := OpDxyn(s, op).value;
    var fixed := OpDxynFixed(s, op.(n := 1)).value;
    assert drawn.video == fixed.video;
    assert drawn.registers == fixed.registers;
  }

  /** What that means pixel by pixel: pixel x0 + c of screen row y0 is XORed
      with bit 7 - c of `memory[I]`, and every other pixel keeps its value. */
  lemma DxynFirstRowPixels(s: VM, op: Opcodes)
    requires OpDxyn(s, op).Ok?
    requires s.registers[op.x] % ScreenWidth + 8 <= ScreenWidth
    requires s.indexRegister < op.n
    ensures var x0 := s.registers[op.x] % ScreenWidth;
            var y0 := s.registers[op.y] % ScreenHeight;
            forall index :: 0 <= index < ScreenSize ==>
              OpDxyn(s, op).value.video[index]
              == if index / ScreenWidth == y0 && x0 <= index % ScreenWidth < x0 + 8
                 then s.video[index] != Bit(s.memory[s.indexRegister], 7 - (index % ScreenWidth - x0))
                 else s.video[index]
  {
    DxynDrawsFirstRow(s, op);
  }

  // Dxyn: the sprite slice is `memory[I..n]` instead of `memory[I..I + n]`
  // (the as-written consequence is `Sprite.DxynPanicsAboveSixteen`)

  /** The sprite bit the intended draw XORs into `index`: bit 7 - column of
      sprite row `row`, the column and row counted from (x0, y0) */
  function SpriteBit(sprite: seq<Byte>, x0: nat, y0: nat, index: nat): bool {
    var row := index / ScreenWidth - y0;
    var column := index % ScreenWidth - x0;
    if 0 <= row < |sprite| && 0 <= column < 8 then Bit(sprite[row], 7 - column) else false
  }

  /** The intended loop: the mask restarts at 0x80 for every sprite row, so
      pixel `column` of a row reads bit 7 - column of its byte. */
  function DrawRowsFrom(sprite: seq<Byte>, x0: nat, y0: nat, k: nat, video: Video, collided: bool): (drawn: (Video, bool))
    requires x0 < ScreenWidth && y0 < ScreenHeight
    ensures collided ==> drawn.1
    decreases 8 * |sprite| - k
  {
    if k >= 8 * |sprite| then (video, collided)
    else
      var row := k / 8;
      var column := k % 8;
      var bit := Bit(sprite[row], 7 - column);
      if y0 + row > 31 || x0 + column > 63 then
        DrawRowsFrom(sprite, x0, y0, k + 1, video, collided)
      else
        var index := PixelIndex(x0 + column, y0 + row);
        DrawRowsFrom(sprite, x0, y0, k + 1, video[index := video[index] != bit], collided || (video[index] && bit))
  }

  /** Every pending pixel is XORed with its own sprite bit; the rest stay */
  ghost predicate Pattern(sprite: seq<Byte>, x0: nat, y0: nat, k: nat, video: Video, after: Video) {
    forall index :: 0 <= index < ScreenSize ==>
      after[index] == (if Pending(x0, y0, |sprite|, k, index) then video[index] != SpriteBit(sprite, x0, y0, index)
                       else video[index])
  }

  lemma PatternDraw(sprite: seq<Byte>, x0: nat, y0: nat, k: nat, video: Video, after: Video)
    requires x0 < ScreenWidth && y0 < ScreenHeight && k < 8 * |sprite|
    requires y0 + k / 8 <= 31 && x0 + k % 8 <= 63
    requires var index := PixelIndex(x0 + k % 8, y0 + k / 8);
             Pattern(sprite, x0, y0, k + 1, video[index := video[index] != Bit(sprite[k / 8], 7 - k % 8)], after)
    ensures Pattern(sprite, x0, y0, k, video, after)
  {
    var index := PixelIndex(x0 + k % 8, y0 + k / 8);
    Coordinates(x0 + k % 8, y0 + k / 8);
    assert SpriteBit(sprite, x0, y0, index) == Bit(sprite[k / 8], 7 - k % 8);
    forall i
      ensures Pending(x0, y0, |sprite|, k, i) <==> Pending(x0, y0, |sprite|, k + 1, i) || i == index
    {
      PendingStep(x0, y0, |sprite|, k, i);
    }
  }

  lemma PatternSkip(sprite: seq<Byte>, x0: nat, y0: nat, k: nat, video: Video, after: Video)
    requires x0 < ScreenWidth && y0 < ScreenHeight && k < 8 * |sprite|
    requires y0 + k / 8 > 31 || x0 + k % 8 > 63
    requires Pattern(sprite, x0, y0, k + 1, video, after)
    ensures Pattern(sprite, x0, y0, k, video, after)
  {
    forall i
      ensures Pending(x0, y0, |sprite|, k, i) <==> Pending(x0, y0, |sprite|, k + 1, i)
    {
      PendingStep(x0, y0, |sprite|, k, i);
    }
  }

  /** The intended loop XORs each pixel of the sprite's on-screen box with
      its own sprite bit and leaves every other pixel alone */
  lemma {:induction false} DrawRowsFromPattern(sprite: seq<Byte>, x0: nat, y0: nat, k: nat, video: Video, collided: bool)
    requires x0 < ScreenWidth && y0 < ScreenHeight
    ensures Pattern(sprite, x0, y0, k, video, DrawRowsFrom(sprite, x0, y0, k, video, collided).0)
    decreases 8 * |sprite| - k
  {
    if k >= 8 * |sprite| {
      forall index | Pending(x0, y0, |sprite|, k, index)
        ensures false
      {
      }
    } else {
      var bit := Bit(sprite[k / 8], 7 - k % 8);
      if y0 + k / 8 > 31 || x0 + k % 8 > 63 {
        DrawRowsFromPattern(sprite, x0, y0, k + 1, video, collided);
        PatternSkip(sprite, x0, y0, k, video, DrawRowsFrom(sprite, x0, y0, k + 1, video, collided).0);
      } else {
        var index := PixelIndex(x0 + k % 8, y0 + k / 8);
        var video' := video[index := video[index] != bit];
        var collided' := collided || (video[index] && bit);
        DrawRowsFromPattern(sprite, x0, y0, k + 1, video', collided');
        PatternDraw(sprite, x0, y0, k, video, DrawRowsFrom(sprite, x0, y0, k + 1, video', collided').0);
      }
    }
  }

  /** The intended loop keeps the source's frame and collision rule */
  lemma {:induction false} DrawRowsFromEffect(sprite: seq<Byte>, x0: nat, y0: nat, k: nat, video: Video, collided: bool)
    requires x0 < ScreenWidth && y0 < ScreenHeight
    ensures var (after, flag) := DrawRowsFrom(sprite, x0, y0, k, video, collided);
            Effect(x0, y0, |sprite|, k, video, collided, after, flag)
    decreases 8 * |sprite| - k
  {
    if k >= 8 * |sprite| {
      EffectEnd(x0, y0, |sprite|, k, video, collided);
    } else {
      var bit := Bit(sprite[k / 8], 7 - k % 8);
      if y0 + k / 8 > 31 || x0 + k % 8 > 63 {
        DrawRowsFromEffect(sprite, x0, y0, k + 1, video, collided);
        var (after, flag) := DrawRowsFrom(sprite, x0, y0, k + 1, video, collided);
        EffectSkip(x0, y0, |sprite|, k, video, collided, after, flag);
      } else {
        var index := PixelIndex(x0 + k % 8, y0 + k / 8);
        var video' := video[index := video[index] != bit];
        var collided' := collided || (video[index] && bit);
        DrawRowsFromEffect(sprite, x0, y0, k + 1, video', collided');
        var (after, flag) := DrawRowsFrom(sprite, x0, y0, k + 1, video', collided');
        EffectDraw(x0, y0, |sprite|, k, video, collided, bit, after, flag);
      }
    }
  }

  /** Dxyn with the sprite read from `memory[I..I + n]` and the mask reset
      for every row: the slice panics only when it runs past memory. */
  function OpDxynFixed(s: VM, op: Opcodes): (r: Outcome<VM>)
    ensures !r.Hang?
    ensures r.Ok? <==> op.x < RegisterCount && op.y < RegisterCount && s.indexRegister + op.n <= MemorySize
    ensures r.Ok? ==> r.value.updateDisplay
    ensures r.Ok? ==> RegistersExcept(s.(video := r.value.video, updateDisplay := true), r.value, {FlagRegister})
    ensures r.Ok? ==>
              var x0 := s.registers[op.x] % ScreenWidth;
              var y0 := s.registers[op.y] % ScreenHeight;
              var sprite := s.memory[s.indexRegister..s.indexRegister + op.n];
              forall index :: 0 <= index < ScreenSize ==>
                r.value.video[index] ==
                (if InSpriteBox(x0, y0, op.n, index) then s.video[index] != SpriteBit(sprite, x0, y0, index)
                 else s.video[index])
    ensures r.Ok? ==>
              r.value.registers[FlagRegister] ==
              (if exists index :: 0 <= index < ScreenSize && s.video[index] && !r.value.video[index] then 1 else 0)
  {
    var vx :- Reg(s, op.x);
    var vy :- Reg(s, op.y);
    var x0 := vx % ScreenWidth;
    var y0 := vy % ScreenHeight;
    if s.indexRegister + op.n > MemorySize then Panic
    else
      var sprite := s.memory[s.indexRegister..s.indexRegister + op.n];
      var (video, collided) := DrawRowsFrom(sprite, x0, y0, 0, s.video, false);
      DrawRowsFromPattern(sprite, x0, y0, 0, s.video, false);
      DrawRowsFromEffect(sprite, x0, y0, 0, s.video, false);
      Ok(s.(updateDisplay := true, video := video,
            registers := s.registers[FlagRegister := if collided then 1 else 0]))
  }

  /** With the fix, the font glyphs `build` installs at 0x50 can be drawn */
  lemma FixedDrawReadsFont(s: VM, op: Opcodes)
    requires op.x < RegisterCount && op.y < RegisterCount && op.n == 5
    requires FontAddress <= s.indexRegister < FontAddress + 80
    ensures OpDxynFixed(s, op).Ok?
    ensures OpDxyn(s, op) == Panic
  {
  }

  // 8xy6 and 8xyE with x == y: the flag is read from the shifted register

  /** As written, shifting a register into itself stores a lost bit in VF
      only by coincidence: 8xx6 keeps 2 * Vx' + VF == Vx exactly when bits 0
      and 1 of Vx agree, and 8xxE keeps Vx' + 256 * VF == 2 * Vx exactly when
      bits 6 and 7 agree. */
  lemma ShiftInPlaceLosesBit(s: VM, op: Opcodes)
    requires op.x == op.y < FlagRegister
    ensures Op8xy6(s, op).Ok? && Op8xyE(s, op).Ok?
    ensures 2 * (Op8xy6(s, op).value.registers[op.x] as int) + Op8xy6(s, op).value.registers[FlagRegister]
            == s.registers[op.x]
            <==> s.registers[op.x] % 2 == s.registers[op.x] / 2 % 2
    ensures Op8xyE(s, op).value.registers[op.x] as int + 256 * (Op8xyE(s, op).value.registers[FlagRegister] as int)
            == 2 * (s.registers[op.x] as int)
            <==> s.registers[op.x] / 128 == s.registers[op.x] / 64 % 2
  {
    HalveInPlace(s.registers[op.x]);
    DoubleInPlace(s.registers[op.x]);
  }

  /** v / 2 with bit 1 of v as the flag adds back up to v exactly when bits 0 and 1 agree */
  lemma HalveInPlace(v: Byte)
    ensures 2 * (v / 2) + v / 2 % 2 == v <==> v % 2 == v / 2 % 2
  {
    assert v == 2 * (v / 2) + v % 2;
  }

  /** 2v mod 256 with bit 7 of that as the flag gives 2v exactly when bits 6 and 7 of v agree */
  lemma DoubleInPlace(v: Byte)
    ensures 2 * v % 256 + 256 * (2 * v % 256 / 128) == 2 * v <==> v / 128 == v / 64 % 2
  {
    var high, middle, low := v / 128, v / 64 % 2, v % 64;
    assert v == 128 * high + 64 * middle + low;
    assert 2 * v % 256 == 128 * middle + 2 * low;
  }

  /** 8xy6 reading Vx once, before any write, as the comment describes:
      the bit shifted out lands in VF whichever registers x and y name */
  function Op8xy6Fixed(s: VM, op: Opcodes): (r: Outcome<VM>)
    ensures !r.Hang?
    ensures r.Ok? <==> op.x < RegisterCount && op.y < RegisterCount
    ensures r.Ok? ==> RegistersExcept(s, r.value, {op.x, op.y, FlagRegister})
    ensures r.Ok? && op.x < FlagRegister ==>
              && 2 * (r.value.registers[op.x] as int) + r.value.registers[FlagRegister] == s.registers[op.x]
              && r.value.registers[FlagRegister] < 2
    ensures r.Ok? && op.y != op.x && op.y < FlagRegister ==> r.value.registers[op.y] == s.registers[op.x]
  {
    var vx :- Reg(s, op.x);
    if op.y >= RegisterCount then Panic
    else Ok(s.(registers := s.registers[op.y := vx][op.x := vx / 2][FlagRegister := vx % 2]))
  }

  /** 8xyE reading Vx once, before any write: the bit shifted out of the
      top lands in VF whichever registers x and y name */
  function Op8xyEFixed(s: VM, op: Opcodes): (r: Outcome<VM>)
    ensures !r.Hang?
    ensures r.Ok? <==> op.x < RegisterCount && op.y < RegisterCount
    ensures r.Ok? ==> RegistersExcept(s, r.value, {op.x, op.y, FlagRegister})
    ensures r.Ok? && op.x < FlagRegister ==>
              && r.value.registers[op.x] as int + 256 * (r.value.registers[FlagRegister] as int)
                 == 2 * (s.registers[op.x] as int)
              && r.value.registers[FlagRegister] < 2
    ensures r.Ok? && op.y != op.x && op.y < FlagRegister ==> r.value.registers[op.y] == s.registers[op.x]
  {
    var vx :- Reg(s, op.x);
    if op.y >= RegisterCount then Panic
    else Ok(s.(registers := s.registers[op.y := vx][op.x := vx as int * 2 % 256][FlagRegister := vx / 128]))
  }

  /** Where the as-written handlers keep the shift law, the corrected ones
      agree with them */
  lemma ShiftFixedAgrees(s: VM, op: Opcodes)
    requires op.x < FlagRegister && op.y < FlagRegister && op.x != op.y
    ensures Op8xy6Fixed(s, op) == Op8xy6(s, op)
    ensures Op8xyEFixed(s, op) == Op8xyE(s, op)
  {
  }

  // The register file: `[u8; 8]` although VF is index 0xF

  /** Rust's checked `registers[index] = value` on a file of any length */
  function Store(registers: seq<Byte>, index: int, value: Byte): (r: Outcome<seq<Byte>>)
    ensures !r.Hang?
    ensures r.Ok? <==> 0 <= index < |registers|
    ensures r.Ok? ==> |r.value| == |registers| && r.value[index] == value
    ensures r.Ok? ==> forall j :: 0 <= j < |registers| && j != index ==> r.value[j] == registers[j]
  {
    if 0 <= index < |registers| then Ok(registers[index := value]) else Panic
  }

  /** Rust's checked `registers[index]` read on a file of any length */
  function Load(registers: seq<Byte>, index: int): (r: Outcome<Byte>)
    ensures !r.Hang?
    ensures r.Ok? <==> 0 <= index < |registers|
    ensures r.Ok? ==> r.value == registers[index]
  {
    if 0 <= index < |registers| then Ok(registers[index]) else Panic
  }

  /** 8xy4 on a register file of any length, every access checked: both
      operands are read, then Vx is stored (it was just read, so that store
      cannot fail) and then VF. */
  function AddOnFile(registers: seq<Byte>, x: U16, y: U16): (r: Outcome<seq<Byte>>)
    ensures !r.Hang?
    ensures r.Ok? <==> x < |registers| && y < |registers| && FlagRegister < |registers|
    ensures r.Ok? ==> |r.value| == |registers|
  {
    var vx :- Load(registers, x);
    var vy :- Load(registers, y);
    var result := vx as int + vy;
    if result > 255 then Store(registers[x := result % 255], FlagRegister, 1)
    else Store(registers[x := result], FlagRegister, 0)
  }

  /** On the declared eight-entry file 8xy4 fails for every x and y, even
      when both name one of the eight registers, because its flag write
      indexes entry 0xF. rustc's deny-by-default `unconditional_panic` lint
      rejects that constant index at build time; `Panic` is what it does at
      run time when the lint is allowed. */
  lemma DeclaredFileRejectsAdd(registers: seq<Byte>, op: Opcodes)
    requires |registers| == 8
    ensures AddOnFile(registers, op.x, op.y) == Panic
  {
  }

  /** On the sixteen-entry file the model uses, the checked 8xy4 is
      `Arithmetic.Op8xy4`: the same registers, or the same panic. */
  lemma FullFileAddIsOp8xy4(s: VM, op: Opcodes)
    ensures AddOnFile(s.registers, op.x, op.y).Ok? <==> Op8xy4(s, op).Ok?
    ensures Op8xy4(s, op).Ok? ==>
              Op8xy4(s, op).value == s.(registers := AddOnFile(s.registers, op.x, op.y).value)
  {
  }
}

=== FILE: flow.dfy ===
/** The handlers that only move the program counter or the call stack:
    00E0 (which clears the screen and lives here with its 0x0 sibling), 00EE,
    1nnn, 2nnn, Bnnn and the six conditional skips 3xkk, 4xkk, 5xy0, 9xy0,
    Ex9E, ExA1 (src/virtual_machine.rs). */
module Flow {
  import opened Outcomes
  import opened Machine

  /** `program_counter += 2` when `condition` holds, nothing otherwise */
  function SkipIf(s: VM, condition: bool): Outcome<VM> {
    if condition then AddToProgramCounter(s, 2) else Ok(s)
  }

  /** 00E0 CLS: every pixel off. The handler does not set `update_display`,
      so the host is not told to redraw. */
  function Op00E0(s: VM): (r: Outcome<VM>)
    ensures r.Ok?
    ensures forall p :: 0 <= p < ScreenSize ==> !r.value.video[p]
    ensures r.value == s.(video := r.value.video)
  {
    Ok(s.(video := seq(ScreenSize, _ => false)))
  }

  /** 00EE RET: pop the return address; `unwrap` panics on an empty stack */
  function Op00EE(s: VM): (r: Outcome<VM>)
    ensures !r.Hang?
    ensures r.Ok? <==> |s.stack| > 0
    ensures r.Ok? ==> s.stack == r.value.stack + [r.value.programCounter]
    ensures r.Ok? ==> r.value == s.(stack := r.value.stack, programCounter := r.value.programCounter)
  {
    if |s.stack| == 0 then Panic
    else Ok(s.(programCounter := s.stack[|s.stack| - 1], stack := s.stack[..|s.stack| - 1]))
  }

  /** 1nnn JP: jump */
  function Op1nnn(s: VM, op: Opcodes): (r: Outcome<VM>)
    ensures r.Ok?
    ensures r.value.programCounter == op.nnn
    ensures r.value == s.(programCounter := r.value.programCounter)
  {
    Ok(s.(programCounter := op.nnn))
  }

  /** 2nnn CALL: push the current PC, then jump */
  function Op2nnn(s: VM, op: Opcodes): (r: Outcome<VM>)
    ensures r.Ok?
    ensures r.value.stack == s.stack + [s.programCounter]
    ensures r.value.programCounter == op.nnn
    ensures r.value == s.(stack := r.value.stack, programCounter := r.value.programCounter)
  {
    Ok(s.(stack := s.stack + [s.programCounter], programCounter := op.nnn))
  }

  /** A return right after a call restores the caller's PC and stack */
  lemma CallThenReturn(s: VM, op: Opcodes)
    ensures Op2nnn(s, op).Ok?
    ensures Op00EE(Op2nnn(s, op).value) == Ok(s)
  {
    assert (s.stack + [s.programCounter])[..|s.stack|] == s.stack;
  }

  /** Returning on an empty stack panics, whatever else the state holds */
  lemma ReturnOnEmptyStackPanics(s: VM)
    requires s.stack == []
    ensures Op00EE(s) == Panic
  {
  }

  /** Bnnn JP V0: jump to nnn + V0, a u16 addition that panics on overflow */
  function OpBnnn(s: VM, op: Opcodes): (r: Outcome<VM>)
    ensures !r.Hang?
    ensures r.Ok? <==> op.nnn + s.registers[0] < 0x1_0000
    ensures WellFormed(op) ==> r.Ok?
    ensures r.Ok? ==> r.value == s.(programCounter := op.nnn + s.registers[0])
  {
    if op.nnn + s.registers[0] >= 0x1_0000 then Panic
    else Ok(s.(programCounter := op.nnn + s.registers[0]))
  }

  /** 3xkk SE: skip when Vx == kk */
  function Op3xkk(s: VM, op: Opcodes): (r: Outcome<VM>)
    ensures op.x >= RegisterCount ==> r == Panic
    ensures op.x < RegisterCount && s.registers[op.x] == op.nn ==> r == AddToProgramCounter(s, 2)
    ensures op.x < RegisterCount && s.registers[op.x] != op.nn ==> r == Ok(s)
  {
    var vx :- Reg(s, op.x);
    SkipIf(s, vx == op.nn)
  }

  /** 4xkk SNE: skip when Vx != kk */
  function Op4xkk(s: VM, op: Opcodes): (r: Outcome<VM>)
    ensures op.x >= RegisterCount ==> r == Panic
    ensures op.x < RegisterCount && s.registers[op.x] != op.nn ==> r == AddToProgramCounter(s, 2)
    ensures op.x < RegisterCount && s.registers[op.x] == op.nn ==> r == Ok(s)
  {
    var vx :- Reg(s, op.x);
    SkipIf(s, vx != op.nn)
  }

  /** 5xy0 SE: skip when Vx == Vy */
  function Op5xy0(s: VM, op: Opcodes): (r: Outcome<VM>)
    ensures op.x >= RegisterCount || op.y >= RegisterCount ==> r == Panic
    ensures op.x < RegisterCount && op.y < RegisterCount ==>
              r == (if s.registers[op.x] == s.registers[op.y] then AddToProgramCounter(s, 2) else Ok(s))
  {
    var vx :- Reg(s, op.x);
    var vy :- Reg(s, op.y);
    SkipIf(s, vx == vy)
  }

  /** 9xy0 SNE: skip when Vx != Vy */
  function Op9xy0(s: VM, op: Opcodes): (r: Outcome<VM>)
    ensures op.x >= RegisterCount || op.y >= RegisterCount ==> r == Panic
    ensures op.x < RegisterCount && op.y < RegisterCount ==>
              r == (if s.registers[op.x] != s.registers[op.y] then AddToProgramCounter(s, 2) else Ok(s))
  {
    var vx :- Reg(s, op.x);
    var vy :- Reg(s, op.y);
    SkipIf(s, vx != vy)
  }

  /** Ex9E SKP: skip when the key numbered Vx is pressed; `keys[Vx]` panics
      when Vx is not a key number */
  function OpEx9E(s: VM, op: Opcodes): (r: Outcome<VM>)
    ensures op.x >= RegisterCount ==> r == Panic
    ensures op.x < RegisterCount && s.registers[op.x] >= KeyCount ==> r == Panic
    ensures op.x < RegisterCount && s.registers[op.x] < KeyCount ==>
              r == (if s.keys[s.registers[op.x]] then AddToProgramCounter(s, 2) else Ok(s))
  {
    var key :- Reg(s, op.x);
    if key >= KeyCount then Panic
    else SkipIf(s, s.keys[key])
  }

  /** ExA1 SKNP: skip when the key numbered Vx is not pressed */
  function OpExA1(s: VM, op: Opcodes): (r: Outcome<VM>)
    ensures op.x >= RegisterCount ==> r == Panic
    ensures op.x < RegisterCount && s.registers[op.x] >= KeyCount ==> r == Panic
    ensures op.x < RegisterCount && s.registers[op.x] < KeyCount ==>
              r == (if !s.keys[s.registers[op.x]] then AddToProgramCounter(s, 2) else Ok(s))
  {
    var key :- Reg(s, op.x);
    if key >= KeyCount then Panic
    else SkipIf(s, !s.keys[key])
  }

  /** Of two complementary skips on the same state, exactly one leaves the
      state as it is, and the other advances PC by two (or panics on the u16
      overflow). */
  ghost predicate Complementary(r1: Outcome<VM>, r2: Outcome<VM>, s: VM) {
    var skip := AddToProgramCounter(s, 2);
    && ((r1 == Ok(s) && r2 == skip) || (r1 == skip && r2 == Ok(s)))
    && (r1 == Ok(s)) != (r2 == Ok(s))
  }

  lemma SkipEqualComplementary(s: VM, op: Opcodes)
    requires op.x < RegisterCount
    ensures Complementary(Op3xkk(s, op), Op4xkk(s, op), s)
  {
  }

  lemma SkipRegistersComplementary(s: VM, op: Opcodes)
    requires op.x < RegisterCount && op.y < RegisterCount
    ensures Complementary(Op5xy0(s, op), Op9xy0(s, op), s)
  {
  }

  lemma SkipKeyComplementary(s: VM, op: Opcodes)
    requires op.x < RegisterCount && s.registers[op.x] < KeyCount
    ensures Complementary(OpEx9E(s, op), OpExA1(s, op), s)
  {
  }
}

=== FILE: keypad.dfy ===
/** The keypad edge handlers (`handle_keydown`, `handle_keyup` in
    src/virtual_machine.rs): a fixed table from sixteen host keys, laid out
    4x4 on a QWERTY keyboard, to the hexadecimal keys 0x0..0xF. */
module Keypad {
  import opened Machine

  /** The host keys the table names, and every other key code */
  datatype Keycode =
    | Num1 | Num2 | Num3 | Num4
    | Q | W | E | R
    | A | S | D | F
    | Z | X | C | V
    | Other(code: int)

  /** The CHIP-8 key a host key stands for, if any */
  function KeyIndex(k: Keycode): (r: KeySlot)
    ensures r.Mapped? <==> !k.Other?
    ensures r.Mapped? ==> r.index < KeyCount
  {
    match k
    case Num1 => Mapped(0x1)
    case Num2 => Mapped(0x2)
    case Num3 => Mapped(0x3)
    case Num4 => Mapped(0xC)
    case Q => Mapped(0x4)
    case W => Mapped(0x5)
    case E => Mapped(0x6)
    case R => Mapped(0xD)
    case A => Mapped(0x7)
    case S => Mapped(0x8)
    case D => Mapped(0x9)
    case F => Mapped(0xE)
    case Z => Mapped(0xA)
    case X => Mapped(0x0)
    case C => Mapped(0xB)
    case V => Mapped(0xF)
    case Other(_) => Unmapped
  }

  /** The CHIP-8 key a host key is bound to, if any */
  datatype KeySlot = Unmapped | Mapped(index: nat)

  /** The host key bound to each CHIP-8 key: the inverse of `KeyIndex` */
  function KeyFor(index: nat): Keycode
    requires index < KeyCount
  {
    [X, Num1, Num2, Num3, Q, W, E, A, S, D, Z, C, Num4, R, F, V][index]
  }

  /** Every CHIP-8 key has exactly one host key: the mapped keys and the
      indices 0x0..0xF are in one-to-one correspondence. */
  lemma KeyTableBijective(k: Keycode, index: nat)
    requires index < KeyCount
    ensures KeyIndex(KeyFor(index)) == Mapped(index)
    ensures KeyIndex(k) == Mapped(index) ==> k == KeyFor(index)
  {
  }

  /** `handle_keydown`: the mapped key becomes pressed; anything else is ignored */
  function KeyDown(s: VM, k: Keycode): (t: VM)
    ensures KeyIndex(k).Mapped? ==> t.keys[KeyIndex(k).index]
    ensures forall j :: 0 <= j < KeyCount && KeyIndex(k) != Mapped(j) ==> t.keys[j] == s.keys[j]
    ensures t == s.(keys := t.keys)
    ensures k.Other? ==> t == s
  {
    match KeyIndex(k)
    case Mapped(index) => s.(keys := s.keys[index := true])
    case Unmapped => s
  }

  /** `handle_keyup`: the mapped key becomes released; anything else is ignored */
  function KeyUp(s: VM, k: Keycode): (t: VM)
    ensures KeyIndex(k).Mapped? ==> !t.keys[KeyIndex(k).index]
    ensures forall j :: 0 <= j < KeyCount && KeyIndex(k) != Mapped(j) ==> t.keys[j] == s.keys[j]
    ensures t == s.(keys := t.keys)
    ensures k.Other? ==> t == s
  {
    match KeyIndex(k)
    case Mapped(index) => s.(keys := s.keys[index := false])
    case Unmapped => s
  }

  /** Key state is a level, not a count: repeating an edge changes nothing,
      and a release cancels any earlier press of the same key. */
  lemma KeyEdgesAreLevels(s: VM, k: Keycode)
    ensures KeyDown(KeyDown(s, k), k) == KeyDown(s, k)
    ensures KeyUp(KeyUp(s, k), k) == KeyUp(s, k)
    ensures KeyUp(KeyDown(s, k), k) == KeyUp(s, k)
    ensures KeyDown(KeyUp(s, k), k) == KeyDown(s, k)
  {
  }

  /** A press followed by a release restores the state when the key was up */
  lemma PressReleaseRestores(s: VM, k: Keycode)
    requires KeyIndex(k).Mapped? ==> !s.keys[KeyIndex(k).index]
    ensures KeyUp(KeyDown(s, k), k) == s
  {
  }
}

=== FILE: machine.dfy ===
/** The state of the CHIP-8 virtual machine, its construction, and the
    instruction fetch (src/virtual_machine.rs, `VirtualMachine`, `build`,
    `fetch`, `Opcodes`, `FONT`).

    The Rust struct declares `registers: [u8; 8]` (line 13), but every handler
    indexes the file with a 4-bit register number and writes the flag register
    as `registers[0xF]`. With eight entries that constant index is past the
    end: rustc's deny-by-default `unconditional_panic` lint rejects it at
    build time, and it would panic at run time only if the lint were allowed.
    This model gives the register file the sixteen entries V0..VF that the
    instruction set and the handlers' comments assume.

    The random generator field `rng` is not part of the state: the byte it
    would produce is an argument of the Cxkk handler instead. */
module Machine {
  import opened Outcomes

  type Byte = b: int | 0 <= b < 0x100
  type U16 = w: int | 0 <= w < 0x1_0000

  const MemorySize: nat := 4096
  const ScreenWidth: nat := 64
  const ScreenHeight: nat := 32
  const ScreenSize: nat := 2048
  const RegisterCount: nat := 16
  const KeyCount: nat := 16
  /** Index of VF, the register the arithmetic, shift and draw handlers use as a flag */
  const FlagRegister: nat := 0xF
  /** Where `build` copies the font, and where programs start */
  const FontAddress: nat := 0x50
  const ProgramStart: nat := 0x200

  type Memory = m: seq<Byte> | |m| == 4096 witness seq(4096, _ => 0)
  type Video = v: seq<bool> | |v| == 2048 witness seq(2048, _ => false)
  type Registers = r: seq<Byte> | |r| == 16 witness seq(16, _ => 0)
  type Keys = k: seq<bool> | |k| == 16 witness seq(16, _ => false)

  /** The fields of `VirtualMachine`, minus the random generator. The frame
      buffer is row-major: pixel (x, y) is `video[y * 64 + x]`. */
  datatype VM = VM(
    memory: Memory,
    video: Video,
    programCounter: U16,
    indexRegister: U16,
    stack: seq<U16>,
    delayTimer: Byte,
    soundTimer: Byte,
    registers: Registers,
    keys: Keys,
    updateDisplay: bool)

  /** The sixteen built-in hexadecimal glyphs, five bytes each (`FONT`) */
  const Font: seq<Byte> := [
    0xF0, 0x90, 0x90, 0x90, 0xF0, // 0
    0x20, 0x60, 0x20, 0x20, 0x70, // 1
    0xF0, 0x10, 0xF0, 0x80, 0xF0, // 2
    0xF0, 0x10, 0xF0, 0x10, 0xF0, // 3
    0x90, 0x90, 0xF0, 0x10, 0x10, // 4
    0xF0, 0x80, 0xF0, 0x10, 0xF0, // 5
    0xF0, 0x80, 0xF0, 0x90, 0xF0, // 6
    0xF0, 0x10, 0x20, 0x40, 0x40, // 7
    0xF0, 0x90, 0xF0, 0x90, 0xF0, // 8
    0xF0, 0x90, 0xF0, 0x10, 0xF0, // 9
    0xF0, 0x90, 0xF0, 0x90, 0x90, // A
    0xE0, 0x90, 0xE0, 0x90, 0xE0, // B
    0xF0, 0x80, 0x80, 0x80, 0xF0, // C
    0xE0, 0x90, 0x90, 0x90, 0xE0, // D
    0xF0, 0x80, 0xF0, 0x80, 0xF0, // E
    0xF0, 0x80, 0xF0, 0x80, 0x80  // F
  ]

  /** Memory holds the font at 0x50..0xA0 and zero everywhere else */
  ghost predicate FreshMemory(memory: Memory) {
    && (forall k :: 0 <= k < |Font| ==> memory[FontAddress + k] == Font[k])
    && (forall a :: 0 <= a < MemorySize && !(FontAddress <= a < FontAddress + |Font|) ==> memory[a] == 0)
  }

  /** `VirtualMachine::build`: zeroed state, PC at 0x200, then the font
      copied byte by byte to 0x50. */
  method Build() returns (vm: VM)
    ensures FreshMemory(vm.memory)
    ensures vm.programCounter == ProgramStart
    ensures vm.indexRegister == 0 && vm.stack == []
    ensures vm.delayTimer == 0 && vm.soundTimer == 0
    ensures forall r :: 0 <= r < RegisterCount ==> vm.registers[r] == 0
    ensures forall p :: 0 <= p < ScreenSize ==> !vm.video[p]
    ensures forall k :: 0 <= k < KeyCount ==> !vm.keys[k]
    ensures !vm.updateDisplay
  {
    var memory: Memory := seq(4096, _ => 0);
    for k := 0 to |Font|
      invariant forall j :: 0 <= j < k ==> memory[FontAddress + j] == Font[j]
      invariant forall a :: 0 <= a < MemorySize && !(FontAddress <= a < FontAddress + k) ==> memory[a] == 0
    {
      memory := memory[FontAddress + k := Font[k]];
    }
    vm := VM(memory, seq(2048, _ => false), ProgramStart, 0, [], 0, 0,
             seq(16, _ => 0), seq(16, _ => false), false);
  }

  /** The decoded fields of one instruction word. As in the Rust struct, all
      but `nn` are 16-bit values; only `Fetch` builds them, and it proves the
      bounds the handlers rely on. */
  datatype Opcodes = Opcodes(i: U16, x: U16, y: U16, n: U16, nn: Byte, nnn: U16)

  /** The big-endian instruction word `((a as u16) << 8) | (b as u16)` made
      of the bytes at PC and PC + 1; the two bytes occupy disjoint bits, so
      the OR is a sum. */
  function Word(a: Byte, b: Byte): U16 {
    a * 256 + b
  }

  /** Splitting an instruction word into its fields. Each Rust mask-and-shift
      `(instruction & m) >> k` keeps a contiguous run of bits, written here as
      a division and a remainder by powers of two. */
  function Decode(instruction: U16): (op: Opcodes)
    ensures op.i < 16 && op.x < 16 && op.y < 16 && op.n < 16
    ensures op.nnn < 0x1000
    ensures op.nn == instruction % 256
    ensures op.nn == op.y * 16 + op.n && op.nnn == op.x * 256 + op.nn
    ensures Encode(op) == instruction
  {
    WordFields(instruction);
    Opcodes(
      instruction / 0x1000,
      instruction % 0x1000 / 0x100,
      instruction % 0x100 / 0x10,
      instruction % 0x10,
      instruction % 0x100,
      instruction % 0x1000)
  }

  /** The four nibbles of a word, peeled off one division at a time */
  lemma WordFields(w: U16)
    ensures w / 0x1000 < 16 && w % 0x1000 / 0x100 < 16 && w % 0x100 / 0x10 < 16
    ensures w % 0x1000 == (w % 0x1000 / 0x100) * 0x100 + w % 0x100
    ensures w % 0x100 == (w % 0x100 / 0x10) * 0x10 + w % 0x10
    ensures w == (w / 0x1000) * 0x1000 + w % 0x1000
  {
    var high := w / 0x1000;
    var low := w % 0x1000;
    assert w == high * 0x1000 + low;
    var middle := low / 0x100;
    assert low == middle * 0x100 + low % 0x100;
    assert w == (high * 16 + middle) * 0x100 + low % 0x100;
    assert low % 0x100 == w % 0x100;
    var byte := w % 0x100;
    assert byte == (byte / 0x10) * 0x10 + byte % 0x10;
    assert w == ((high * 16 + middle) * 16 + byte / 0x10) * 0x10 + byte % 0x10;
    assert byte % 0x10 == w % 0x10;
  }

  /** Reassembling the word from the four nibbles, `(i << 12) | (x << 8) | (y << 4) | n`
      (a sum, the nibbles of a well-formed record being below 16) */
  function Encode(op: Opcodes): int {
    op.i * 0x1000 + op.x * 0x100 + op.y * 0x10 + op.n
  }

  /** The field combinations `Decode` can produce */
  ghost predicate WellFormed(op: Opcodes) {
    && op.i < 16 && op.x < 16 && op.y < 16 && op.n < 16
    && op.nn == op.y * 16 + op.n
    && op.nnn == op.x * 256 + op.nn
  }

  /** Decoding is a bijection between words and well-formed field records */
  lemma DecodeEncode(op: Opcodes)
    requires WellFormed(op)
    ensures 0 <= Encode(op) < 0x1_0000
    ensures Decode(Encode(op)) == op
  {
  }

  /** `fetch`: read two bytes at PC, advance PC by two, decode. Indexing
      `memory` with PC or PC + 1 panics when either is past the end; once both
      reads succeed, PC + 2 is at most 4096 and the u16 addition cannot
      overflow. */
  function Fetch(s: VM): (r: Outcome<(VM, Opcodes)>)
    ensures !r.Hang?
    ensures r.Ok? <==> s.programCounter + 1 < MemorySize
    ensures r.Ok? ==> r.value.0 == s.(programCounter := s.programCounter + 2)
    ensures r.Ok? ==> WellFormed(r.value.1)
    ensures r.Ok? ==> Encode(r.value.1) ==
                      s.memory[s.programCounter] as int * 256 + s.memory[s.programCounter + 1]
  {
    if s.programCounter >= MemorySize || s.programCounter + 1 >= MemorySize then Panic
    else
      var a := s.memory[s.programCounter];
      var b := s.memory[s.programCounter + 1];
      Ok((s.(programCounter := s.programCounter + 2), Decode(Word(a, b))))
  }

  /** `program_counter += delta` on a u16, which panics on overflow */
  function AddToProgramCounter(s: VM, delta: nat): (r: Outcome<VM>)
    ensures r.Ok? <==> s.programCounter + delta < 0x1_0000
    ensures r.Ok? ==> r.value == s.(programCounter := s.programCounter + delta)
    ensures !r.Hang?
  {
    if s.programCounter + delta >= 0x1_0000 then Panic
    else Ok(s.(programCounter := s.programCounter + delta))
  }

  /** `registers[x]`, which panics for an index past the register file */
  function Reg(s: VM, x: U16): (r: Outcome<Byte>)
    ensures r.Ok? <==> x < RegisterCount
    ensures r.Ok? ==> r.value == s.registers[x]
    ensures !r.Hang?
  {
    if x < RegisterCount then Ok(s.registers[x]) else Panic
  }

  /** `t` is `s` except in the registers named in `changed` */
  ghost predicate RegistersExcept(s: VM, t: VM, changed: set<int>) {
    && t == s.(registers := t.registers)
    && forall j :: 0 <= j < RegisterCount && j !in changed ==> t.registers[j] == s.registers[j]
  }
}

=== FILE: outcomes.dfy ===
/** The ways one step of the virtual machine can end.

    The Rust handlers mutate `&mut self` and either return normally, panic
    (an index out of bounds, `unwrap` of an empty stack, an integer overflow
    under the default debug profile, a `todo!`), or never return (a busy-wait
    that nothing can end). The model returns a fresh state in the first case
    and names the other two. */
module Outcomes {

  datatype Outcome<+T> = Ok(value: T) | Panic | Hang {

    predicate IsFailure() {
      !Ok?
    }

    function PropagateFailure<U>(): Outcome<U>
      requires !Ok?
    {
      if Panic? then Panic else Hang
    }

    function Extract(): T
      requires Ok?
    {
      value
    }
  }
}

=== FILE: rendering.dfy ===
/** The pure parts of src/rendering.rs: turning the frame buffer into the
    list of lit points that `draw_video_memory` hands to the canvas, and the
    palette lookup of `get_colors`. Window creation and the canvas calls
    themselves are SDL's and are not modelled; the canvas is an opaque handle. */
module Rendering {
  import opened Machine
  import Sprite

  /** `sdl2::rect::Point` */
  datatype Point = Point(x: int, y: int)

  predicate OnScreen(p: Point) {
    0 <= p.x < ScreenWidth && 0 <= p.y < ScreenHeight
  }

  /** The frame-buffer index of a point: the formula `op_Dxyn` draws with */
  function IndexOf(p: Point): int {
    p.y * ScreenWidth + p.x
  }

  /** The point `draw_video_memory` makes for buffer index i: `(i % 64, i / 64)` */
  function PointOf(i: nat): Point {
    Point(i % ScreenWidth, i / ScreenWidth)
  }

  /** Point extraction inverts the drawing formula, in both directions */
  lemma PointIndexRoundTrip(p: Point, i: nat)
    ensures OnScreen(p) ==> IndexOf(p) >= 0 && PointOf(IndexOf(p)) == p
    ensures i < ScreenSize ==> OnScreen(PointOf(i)) && IndexOf(PointOf(i)) == i
  {
  }

  /** Rendering and Dxyn use the same index map */
  lemma IndexOfIsPixelIndex(p: Point)
    requires OnScreen(p)
    ensures IndexOf(p) == Sprite.PixelIndex(p.x, p.y)
  {
  }

  /** The number of lit cells */
  function LitCount(video: seq<bool>): nat {
    if |video| == 0 then 0
    else LitCount(video[..|video| - 1]) + (if video[|video| - 1] then 1 else 0)
  }

  /** The point loop of `draw_video_memory`: one point per lit cell, in
      increasing buffer order, each on the 64x32 grid. */
  method LitPoints(video: Video) returns (points: seq<Point>)
    ensures forall j :: 0 <= j < |points| ==> OnScreen(points[j]) && video[IndexOf(points[j])]
    ensures forall i :: 0 <= i < ScreenSize ==> (video[i] <==> PointOf(i) in points)
    ensures forall j, l :: 0 <= j < l < |points| ==> IndexOf(points[j]) < IndexOf(points[l])
    ensures |points| == LitCount(video)
  {
    points := [];
    ghost var indices: seq<nat> := [];
    for i := 0 to ScreenSize
      invariant |indices| == |points|
      invariant forall j :: 0 <= j < |points| ==> points[j] == PointOf(indices[j])
      invariant forall j :: 0 <= j < |indices| ==> indices[j] < i && video[indices[j]]
      invariant forall i' :: 0 <= i' < i && video[i'] ==> i' in indices
      invariant forall j, l :: 0 <= j < l < |indices| ==> indices[j] < indices[l]
      invariant |points| == LitCount(video[..i])
    {
      assert video[..i + 1][..i] == video[..i];
      if video[i] {
        points := points + [PointOf(i)];
        indices := indices + [i];
      }
    }
    assert video[..ScreenSize] == video;
    forall j | 0 <= j < |points|
      ensures OnScreen(points[j]) && IndexOf(points[j]) == indices[j]
    {
      PointIndexRoundTrip(points[j], indices[j]);
    }
    forall i | 0 <= i < ScreenSize
      ensures video[i] <==> PointOf(i) in points
    {
      PointIndexRoundTrip(PointOf(i), i);
      if video[i] {
        var j :| 0 <= j < |indices| && indices[j] == i;
        assert points[j] == PointOf(i);
      }
      if PointOf(i) in points {
        var j :| 0 <= j < |points| && points[j] == PointOf(i);
        assert IndexOf(points[j]) == indices[j];
      }
    }
  }

  /** `sdl2::pixels::Color`, always opaque here */
  datatype Color = Rgb(r: Byte, g: Byte, b: Byte)

  const White: Color := Rgb(255, 255, 255)
  const Black: Color := Rgb(0, 0, 0)

  /** `Renderer`: the canvas handle and the two drawing colours */
  datatype Renderer = Renderer(canvas: nat, foreground: Color, background: Color)

  /** `Renderer::build` once the window and canvas exist: white on black */
  function BuildRenderer(canvas: nat): (r: Renderer)
    ensures r.canvas == canvas
    ensures r.foreground == White && r.background == Black
  {
    Renderer(canvas, White, Black)
  }

  /** The names `get_colors` recognises */
  const PaletteNames: set<string> := {"amber", "pride", "moneybags", "mono"}

  /** `get_colors`: the named foreground/background pair; any other name
      falls back to mono (the warning it prints is not modelled). */
  function GetColors(r: Renderer, name: string): (r': Renderer)
    ensures r' == r.(foreground := r'.foreground, background := r'.background)
    ensures name == "amber" ==> r'.foreground == Rgb(255, 197, 0) && r'.background == Rgb(30, 18, 8)
    ensures name == "pride" ==> r'.foreground == Rgb(245, 169, 184) && r'.background == Rgb(91, 206, 250)
    ensures name == "moneybags" ==> r'.foreground == Rgb(239, 152, 21) && r'.background == Rgb(196, 196, 196)
    ensures name !in PaletteNames - {"mono"} ==> r'.foreground == White && r'.background == Black
  {
    var (fg, bg) :=
      match name
      case "amber" => (Rgb(255, 197, 0), Rgb(30, 18, 8))
      case "pride" => (Rgb(245, 169, 184), Rgb(91, 206, 250))
      case "moneybags" => (Rgb(239, 152, 21), Rgb(196, 196, 196))
      case "mono" => (White, Black)
      case _ => (White, Black);
    r.(foreground := fg, background := bg)
  }

  /** An unknown name behaves exactly as "mono", and "mono" is the colour
      pair a renderer starts with. */
  lemma UnknownPaletteIsMono(r: Renderer, name: string, canvas: nat)
    ensures name !in PaletteNames ==> GetColors(r, name) == GetColors(r, "mono")
    ensures GetColors(BuildRenderer(canvas), "mono") == BuildRenderer(canvas)
  {
  }

  /** The colours chosen depend on the name alone, and choosing the same
      palette again changes nothing. */
  lemma PaletteDependsOnNameOnly(r1: Renderer, r2: Renderer, name: string)
    ensures GetColors(r1, name).foreground == GetColors(r2, name).foreground
    ensures GetColors(r1, name).background == GetColors(r2, name).background
    ensures GetColors(GetColors(r1, name), name) == GetColors(r1, name)
  {
  }
}

=== FILE: sequences.dfy ===
/** Short instruction sequences: each lemma relates one handler of
    src/virtual_machine.rs to another that undoes, observes or repeats it. */
module Sequences {
  import opened Outcomes
  import opened Machine
  import opened Bits
  import opened Keypad
  import opened Flow
  import opened Arithmetic
  import opened Timers
  import opened Sprite

  /** After 1nnn the next fetch reads the two bytes at nnn */
  lemma JumpThenFetch(s: VM, op: Opcodes)
    requires op.nnn + 1 < MemorySize
    ensures var t := Op1nnn(s, op).value;
            && Fetch(t).Ok?
            && Fetch(t).value.0.programCounter == op.nnn + 2
            && Encode(Fetch(t).value.1) == s.memory[op.nnn] as int * 256 + s.memory[op.nnn + 1]
  {
  }

  /** Bnnn with V0 = 0 is 1nnn, and otherwise lands V0 bytes further on */
  lemma OffsetJumpIsShiftedJump(s: VM, op: Opcodes)
    requires WellFormed(op)
    ensures s.registers[0] == 0 ==> OpBnnn(s, op) == Op1nnn(s, op)
    ensures OpBnnn(s, op).value.programCounter == Op1nnn(s, op).value.programCounter + s.registers[0]
  {
  }

  /** Annn then Fx1E leaves I at nnn + Vx */
  lemma LoadIndexThenAdd(s: VM, load: Opcodes, add: Opcodes)
    requires add.x < RegisterCount && load.nnn + s.registers[add.x] < 0x1_0000
    ensures OpFx1E(OpAnnn(s, load).value, add).Ok?
    ensures OpFx1E(OpAnnn(s, load).value, add).value.indexRegister == load.nnn + s.registers[add.x]
  {
  }

  /** 6xkk then 3xkk with the same x and kk always skips */
  lemma LoadThenSkipEqual(s: VM, op: Opcodes)
    requires op.x < RegisterCount
    ensures Op6xkk(s, op).Ok?
    ensures Op3xkk(Op6xkk(s, op).value, op) == AddToProgramCounter(Op6xkk(s, op).value, 2)
  {
  }

  /** 8xy0 then 5xy0 on the same pair skips, and 9xy0 does not */
  lemma CopyThenSkipEqual(s: VM, op: Opcodes)
    requires op.x < RegisterCount && op.y < RegisterCount
    ensures Op8xy0(s, op).Ok?
    ensures Op5xy0(Op8xy0(s, op).value, op) == AddToProgramCounter(Op8xy0(s, op).value, 2)
    ensures Op9xy0(Op8xy0(s, op).value, op) == Ok(Op8xy0(s, op).value)
  {
  }

  /** Two 7xkk on one register whose immediates sum to a byte add up as
      one, and one of them panics when the sum leaves the u8 range */
  lemma AddImmediateTwice(s: VM, a: Opcodes, b: Opcodes, c: Opcodes)
    requires a.x == b.x == c.x && a.x < RegisterCount
    requires c.nn == a.nn as int + b.nn
    ensures s.registers[a.x] as int + c.nn < 256 ==>
              Op7xkk(s, a).Ok? && Op7xkk(Op7xkk(s, a).value, b) == Op7xkk(s, c)
    ensures s.registers[a.x] as int + a.nn as int + b.nn >= 256 ==>
              Op7xkk(s, a) == Panic || Op7xkk(Op7xkk(s, a).value, b) == Panic
  {
    if s.registers[a.x] as int + c.nn < 256 {
      var t := Op7xkk(s, a).value;
      assert s.registers[a.x := s.registers[a.x] as int + a.nn][a.x := t.registers[a.x] as int + b.nn]
             == s.registers[a.x := s.registers[a.x] as int + c.nn];
    }
  }

  /** Two 7xkk on one register whose immediates and value add up past a byte
      never both succeed, whatever the immediates */
  lemma AddImmediateTwiceOverflows(s: VM, a: Opcodes, b: Opcodes)
    requires a.x == b.x && a.x < RegisterCount
    requires s.registers[a.x] as int + a.nn as int + b.nn >= 256
    ensures Op7xkk(s, a) == Panic || Op7xkk(Op7xkk(s, a).value, b) == Panic
  {
  }

  /** 8xy3 twice with x != y restores Vx: XOR is its own inverse */
  lemma {:induction false} XorTwiceRestores(s: VM, op: Opcodes)
    requires op.x < RegisterCount && op.y < RegisterCount && op.x != op.y
    ensures Op8xy3(s, op).Ok?
    ensures Op8xy3(Op8xy3(s, op).value, op).Ok?
    ensures Op8xy3(Op8xy3(s, op).value, op).value == s
  {
    var t := Op8xy3(s, op).value;
    var u := Op8xy3(t, op).value;
    assert t.registers[op.y] == s.registers[op.y];
    forall k | 0 <= k < 8
      ensures Bit(u.registers[op.x], k) == Bit(s.registers[op.x], k)
    {
    }
    assert Pow2(8) == 256;
    BitsDetermine(u.registers[op.x], s.registers[op.x], 8);
    assert u.registers == s.registers;
  }

  /** 8xy4 then 8xy5 restores Vx when the addition did not overflow */
  lemma AddThenSubtract(s: VM, op: Opcodes)
    requires op.x < FlagRegister && op.y < FlagRegister && op.x != op.y
    requires s.registers[op.x] as int + s.registers[op.y] <= 255
    ensures Op8xy4(s, op).Ok?
    ensures Op8xy5(Op8xy4(s, op).value, op).Ok?
    ensures Op8xy5(Op8xy4(s, op).value, op).value.registers[op.x] == s.registers[op.x]
    ensures Op8xy5(Op8xy4(s, op).value, op).value.registers[op.y] == s.registers[op.y]
  {
    var t := Op8xy4(s, op).value;
    assert t.registers[op.y] == s.registers[op.y];
  }

  /** 8xyE then 8xy6 restores Vx when its top bit was clear */
  lemma ShiftLeftThenRight(s: VM, op: Opcodes)
    requires op.x < FlagRegister && op.y < FlagRegister && op.x != op.y
    requires s.registers[op.x] < 128
    ensures Op8xyE(s, op).Ok?
    ensures Op8xy6(Op8xyE(s, op).value, op).Ok?
    ensures Op8xy6(Op8xyE(s, op).value, op).value.registers[op.x] == s.registers[op.x]
    ensures Op8xy6(Op8xyE(s, op).value, op).value.registers[FlagRegister] == 0
  {
  }

  /** Fx18 leaves the delay timer to Fx15: loading both from one register
      sets them equal, in either order */
  lemma TimersLoadedTogether(s: VM, op: Opcodes)
    requires op.x < RegisterCount
    ensures OpFx18(OpFx15(s, op).value, op).Ok?
    ensures OpFx18(OpFx15(s, op).value, op) == OpFx15(OpFx18(s, op).value, op)
    ensures OpFx18(OpFx15(s, op).value, op).value.soundTimer == OpFx18(OpFx15(s, op).value, op).value.delayTimer
  {
  }

  /** A key pressed through the keypad makes Ex9E on its index skip; a key
      released makes ExA1 skip */
  lemma KeyEventThenSkip(s: VM, k: Keycode, op: Opcodes)
    requires KeyIndex(k).Mapped? && op.x < RegisterCount && s.registers[op.x] == KeyIndex(k).index
    ensures OpEx9E(KeyDown(s, k), op) == AddToProgramCounter(KeyDown(s, k), 2)
    ensures OpExA1(KeyDown(s, k), op) == Ok(KeyDown(s, k))
    ensures OpExA1(KeyUp(s, k), op) == AddToProgramCounter(KeyUp(s, k), 2)
    ensures OpEx9E(KeyUp(s, k), op) == Ok(KeyUp(s, k))
  {
  }

  /** Drawing on a cleared screen never reports a collision */
  lemma ClearThenDrawNoCollision(s: VM, op: Opcodes)
    requires OpDxyn(Op00E0(s).value, op).Ok?
    ensures OpDxyn(Op00E0(s).value, op).value.registers[FlagRegister] == 0
  {
  }
}

=== FILE: sprite.dfy ===
/** Dxyn DRW (src/virtual_machine.rs, `op_Dxyn`), modelled as the source
    writes it:
    - the start position is (Vx mod 64, Vy mod 32), and pixels past the right
      or bottom edge are skipped rather than wrapped;
    - the sprite is the slice `memory[I..n]`, which panics when I > n, and has
      n - I rows otherwise;
    - one `bitmask`, set to 0x80 before both loops, is halved after every
      pixel that is drawn (not after skipped ones), so once eight pixels have
      been drawn every later sprite bit reads as 0;
    - VF is cleared, then set when a lit pixel is XORed off.

    The two nested loops are one recursion over the pixel number
    k = 8 * row + column: `row` is the sprite byte (the source's `col_i`) and
    `column` the bit within it (the source's `row_i`). */
module Sprite {
  import opened Outcomes
  import opened Machine
  import opened Bits

  /** The source's `(y + col_i) * 64 + x + row_i` */
  function PixelIndex(x: nat, y: nat): nat {
    y * ScreenWidth + x
  }

  /** The pixel a draw from (x0, y0) with `rows` sprite bytes visits at step
      k or later: inside the sprite's 8-wide box, numbered k or more. */
  ghost predicate Pending(x0: nat, y0: nat, rows: nat, k: nat, index: int) {
    && 0 <= index < ScreenSize
    && x0 <= index % ScreenWidth < x0 + 8
    && y0 <= index / ScreenWidth < y0 + rows
    && (index / ScreenWidth - y0) * 8 + (index % ScreenWidth - x0) >= k
  }

  /** The loops of `op_Dxyn` from pixel number k on, carrying the frame
      buffer, whether a lit pixel has been turned off, and the bitmask. */
  function DrawFrom(sprite: seq<Byte>, x0: nat, y0: nat, k: nat, video: Video, collided: bool, mask: nat): (drawn: (Video, bool))
    requires x0 < ScreenWidth && y0 < ScreenHeight
    ensures collided ==> drawn.1
    decreases 8 * |sprite| - k
  {
    if k >= 8 * |sprite| then (video, collided)
    else
      var row := k / 8;
      var column := k % 8;
      var bit := And8(sprite[row], mask) > 0;
      if y0 + row > 31 || x0 + column > 63 then
        DrawFrom(sprite, x0, y0, k + 1, video, collided, mask)
      else
        var index := PixelIndex(x0 + column, y0 + row);
        DrawFrom(sprite, x0, y0, k + 1, Flip(video, index, bit), collided || (video[index] && bit), mask / 2)
  }

  /** One step of the loops on a pixel inside the screen */
  lemma DrawnStep(sprite: seq<Byte>, x0: nat, y0: nat, k: nat, video: Video, collided: bool, mask: nat)
    requires x0 < ScreenWidth && y0 < ScreenHeight && k < 8 * |sprite|
    requires y0 + k / 8 <= 31 && x0 + k % 8 <= 63
    ensures var index := PixelIndex(x0 + k % 8, y0 + k / 8);
            var bit := And8(sprite[k / 8], mask) > 0;
            DrawFrom(sprite, x0, y0, k, video, collided, mask)
            == DrawFrom(sprite, x0, y0, k + 1, Flip(video, index, bit), collided || (video[index] && bit), mask / 2)
  {
  }

  /** One step of the loops on a pixel past the right or bottom edge: nothing
      is drawn and the mask is kept */
  lemma SkippedStep(sprite: seq<Byte>, x0: nat, y0: nat, k: nat, video: Video, collided: bool, mask: nat)
    requires x0 < ScreenWidth && y0 < ScreenHeight && k < 8 * |sprite|
    requires y0 + k / 8 > 31 || x0 + k % 8 > 63
    ensures DrawFrom(sprite, x0, y0, k, video, collided, mask) == DrawFrom(sprite, x0, y0, k + 1, video, collided, mask)
    ensures TogglesFrom(sprite, x0, y0, k, mask) == TogglesFrom(sprite, x0, y0, k + 1, mask)
  {
  }

  /** The column and row of a pixel index are its remainder and quotient by 64 */
  lemma Coordinates(x: nat, y: nat)
    requires x < ScreenWidth
    ensures PixelIndex(x, y) % ScreenWidth == x && PixelIndex(x, y) / ScreenWidth == y
  {
  }

  /** Pixel number k is the only one that stops being pending after step k */
  lemma PendingStep(x0: nat, y0: nat, rows: nat, k: nat, index: int)
    ensures Pending(x0, y0, rows, k, index) <==>
              || Pending(x0, y0, rows, k + 1, index)
              || (&& k < 8 * rows && 0 <= index < ScreenSize
                  && index / ScreenWidth == y0 + k / 8 && index % ScreenWidth == x0 + k % 8)
  {
  }

  /** What the loops do from step k on, as a relation between the screen and
      flag before (`video`, `collided`) and after (`after`, `flag`): pixels
      not pending keep their value, and the flag ends up set exactly when it
      was already set or a pending pixel went from lit to dark. */
  ghost predicate Effect(x0: nat, y0: nat, rows: nat, k: nat, video: Video, collided: bool, after: Video, flag: bool) {
    && (forall index :: 0 <= index < ScreenSize && !Pending(x0, y0, rows, k, index) ==> after[index] == video[index])
    && (flag <==> collided || exists index :: Pending(x0, y0, rows, k, index) && video[index] && !after[index])
  }

  lemma EffectEnd(x0: nat, y0: nat, rows: nat, k: nat, video: Video, collided: bool)
    requires k >= 8 * rows
    ensures Effect(x0, y0, rows, k, video, collided, video, collided)
  {
    forall index | Pending(x0, y0, rows, k, index)
      ensures false
    {
    }
  }

  /** A skipped pixel (past the right or bottom edge) was never pending */
  lemma EffectSkip(x0: nat, y0: nat, rows: nat, k: nat, video: Video, collided: bool, after: Video, flag: bool)
    requires x0 < ScreenWidth && y0 < ScreenHeight && k < 8 * rows
    requires y0 + k / 8 > 31 || x0 + k % 8 > 63
    requires Effect(x0, y0, rows, k + 1, video, collided, after, flag)
    ensures Effect(x0, y0, rows, k, video, collided, after, flag)
  {
    forall index
      ensures Pending(x0, y0, rows, k, index) <==> Pending(x0, y0, rows, k + 1, index)
    {
      PendingStep(x0, y0, rows, k, index);
    }
  }

  /** A drawn pixel is the one pending pixel that the step settles */
  lemma EffectDraw(x0: nat, y0: nat, rows: nat, k: nat, video: Video, collided: bool, bit: bool,
                   after: Video, flag: bool)
    requires x0 < ScreenWidth && y0 < ScreenHeight && k < 8 * rows
    requires y0 + k / 8 <= 31 && x0 + k % 8 <= 63
    requires var index := PixelIndex(x0 + k % 8, y0 + k / 8);
             Effect(x0, y0, rows, k + 1, video[index := video[index] != bit],
                    collided || (video[index] && bit), after, flag)
    ensures Effect(x0, y0, rows, k, video, collided, after, flag)
  {
    var index := PixelIndex(x0 + k % 8, y0 + k / 8);
    Coordinates(x0 + k % 8, y0 + k / 8);
    var video' := video[index := video[index] != bit];
    forall i
      ensures Pending(x0, y0, rows, k, i) <==> Pending(x0, y0, rows, k + 1, i) || i == index
    {
      PendingStep(x0, y0, rows, k, i);
    }
    assert !Pending(x0, y0, rows, k + 1, index);
    assert after[index] == (video[index] != bit);
    if flag && !collided && !(video[index] && bit) {
      var i :| Pending(x0, y0, rows, k + 1, i) && video'[i] && !after[i];
      assert Pending(x0, y0, rows, k, i) && video[i] && !after[i];
    }
    if exists i :: Pending(x0, y0, rows, k, i) && video[i] && !after[i] {
      var i :| Pending(x0, y0, rows, k, i) && video[i] && !after[i];
      if i != index {
        assert Pending(x0, y0, rows, k + 1, i) && video'[i] && !after[i];
      }
    }
  }

  lemma {:induction false} DrawFromEffect(sprite: seq<Byte>, x0: nat, y0: nat, k: nat, video: Video, collided: bool, mask: nat)
    requires x0 < ScreenWidth && y0 < ScreenHeight
    ensures var (after, flag) := DrawFrom(sprite, x0, y0, k, video, collided, mask);
            Effect(x0, y0, |sprite|, k, video, collided, after, flag)
    decreases 8 * |sprite| - k
  {
    if k >= 8 * |sprite| {
      EffectEnd(x0, y0, |sprite|, k, video, collided);
    } else {
      var bit := And8(sprite[k / 8], mask) > 0;
      if y0 + k / 8 > 31 || x0 + k % 8 > 63 {
        DrawFromEffect(sprite, x0, y0, k + 1, video, collided, mask);
        var (after, flag) := DrawFrom(sprite, x0, y0, k + 1, video, collided, mask);
        EffectSkip(x0, y0, |sprite|, k, video, collided, after, flag);
      } else {
        var index := PixelIndex(x0 + k % 8, y0 + k / 8);
        var video' := video[index := video[index] != bit];
        var collided' := collided || (video[index] && bit);
        DrawFromEffect(sprite, x0, y0, k + 1, video', collided', mask / 2);
        var (after, flag) := DrawFrom(sprite, x0, y0, k + 1, video', collided', mask / 2);
        EffectDraw(x0, y0, |sprite|, k, video, collided, bit, after, flag);
      }
    }
  }

  /** Flipping one pixel by `b` */
  function Flip(video: Video, index: nat, b: bool): Video
    requires index < ScreenSize
  {
    video[index := video[index] != b]
  }

  /** One drawn pixel: its frame-buffer index and the sprite bit XORed into it */
  datatype Toggle = Toggle(index: nat, bit: bool)

  predicate OnScreenToggles(toggles: seq<Toggle>) {
    forall j :: 0 <= j < |toggles| ==> toggles[j].index < ScreenSize
  }

  /** The pixels the loops draw from step k on, with their bits: what
      `DrawFrom` does, with the frame buffer left out. */
  function TogglesFrom(sprite: seq<Byte>, x0: nat, y0: nat, k: nat, mask: nat): (toggles: seq<Toggle>)
    requires x0 < ScreenWidth && y0 < ScreenHeight
    ensures OnScreenToggles(toggles)
    decreases 8 * |sprite| - k
  {
    if k >= 8 * |sprite| then []
    else
      var row := k / 8;
      var column := k % 8;
      var bit := And8(sprite[row], mask) > 0;
      if y0 + row > 31 || x0 + column > 63 then TogglesFrom(sprite, x0, y0, k + 1, mask)
      else [Toggle(PixelIndex(x0 + column, y0 + row), bit)] + TogglesFrom(sprite, x0, y0, k + 1, mask / 2)
  }

  /** XOR a list of toggles into the frame buffer, first to last */
  function ApplyToggles(video: Video, toggles: seq<Toggle>): Video
    requires OnScreenToggles(toggles)
    decreases |toggles|
  {
    if |toggles| == 0 then video
    else ApplyToggles(Flip(video, toggles[0].index, toggles[0].bit), toggles[1..])
  }

  /** One drawn step of `TogglesFrom` */
  lemma TogglesDrawn(sprite: seq<Byte>, x0: nat, y0: nat, k: nat, mask: nat)
    requires x0 < ScreenWidth && y0 < ScreenHeight && k < 8 * |sprite|
    requires y0 + k / 8 <= 31 && x0 + k % 8 <= 63
    ensures TogglesFrom(sprite, x0, y0, k, mask)
         == [Toggle(PixelIndex(x0 + k % 8, y0 + k / 8), And8(sprite[k / 8], mask) > 0)]
            + TogglesFrom(sprite, x0, y0, k + 1, mask / 2)
  {
  }

  /** Applying a list that starts with `t` flips t's pixel first */
  lemma ApplyCons(video: Video, t: Toggle, rest: seq<Toggle>)
    requires t.index < ScreenSize && OnScreenToggles(rest)
    ensures OnScreenToggles([t] + rest)
    ensures ApplyToggles(video, [t] + rest) == ApplyToggles(Flip(video, t.index, t.bit), rest)
  {
    assert ([t] + rest)[1..] == rest;
  }

  /** Applying two lists one after the other applies their concatenation */
  lemma {:induction false} ApplyAppend(video: Video, first: seq<Toggle>, second: seq<Toggle>)
    requires OnScreenToggles(first) && OnScreenToggles(second)
    ensures OnScreenToggles(first + second)
    ensures ApplyToggles(video, first + second) == ApplyToggles(ApplyToggles(video, first), second)
    decreases |first|
  {
    if |first| > 0 {
      var t := first[0];
      assert first + second == [t] + (first[1..] + second);
      ApplyCons(video, t, first[1..] + second);
      ApplyAppend(Flip(video, t.index, t.bit), first[1..], second);
      assert ApplyToggles(video, first) == ApplyToggles(Flip(video, t.index, t.bit), first[1..]);
    } else {
      assert first + second == second;
    }
  }

  /** The loops' frame buffer is the old one with their toggles applied */
  lemma {:induction false} DrawFromToggles(sprite: seq<Byte>, x0: nat, y0: nat, k: nat, video: Video,
                                           collided: bool, mask: nat)
    requires x0 < ScreenWidth && y0 < ScreenHeight
    ensures DrawFrom(sprite, x0, y0, k, video, collided, mask).0
         == ApplyToggles(video, TogglesFrom(sprite, x0, y0, k, mask))
    decreases 8 * |sprite| - k
  {
    if k < 8 * |sprite| {
      if y0 + k / 8 > 31 || x0 + k % 8 > 63 {
        SkippedStep(sprite, x0, y0, k, video, collided, mask);
        DrawFromToggles(sprite, x0, y0, k + 1, video, collided, mask);
      } else {
        var j := PixelIndex(x0 + k % 8, y0 + k / 8);
        var bit := And8(sprite[k / 8], mask) > 0;
        DrawFromToggles(sprite, x0, y0, k + 1, Flip(video, j, bit), collided || (video[j] && bit), mask / 2);
        DrawnToggle(sprite, x0, y0, k, video, collided, mask);
      }
    }
  }

  /** A drawn step extends the toggle relation from pixel k + 1 back to k */
  lemma DrawnToggle(sprite: seq<Byte>, x0: nat, y0: nat, k: nat, video: Video, collided: bool, mask: nat)
    requires x0 < ScreenWidth && y0 < ScreenHeight && k < 8 * |sprite|
    requires y0 + k / 8 <= 31 && x0 + k % 8 <= 63
    requires var j := PixelIndex(x0 + k % 8, y0 + k / 8);
             var bit := And8(sprite[k / 8], mask) > 0;
             DrawFrom(sprite, x0, y0, k + 1, Flip(video, j, bit), collided || (video[j] && bit), mask / 2).0
             == ApplyToggles(Flip(video, j, bit), TogglesFrom(sprite, x0, y0, k + 1, mask / 2))
    ensures DrawFrom(sprite, x0, y0, k, video, collided, mask).0
         == ApplyToggles(video, TogglesFrom(sprite, x0, y0, k, mask))
  {
    var j := PixelIndex(x0 + k % 8, y0 + k / 8);
    var bit := And8(sprite[k / 8], mask) > 0;
    DrawnStep(sprite, x0, y0, k, video, collided, mask);
    TogglesDrawn(sprite, x0, y0, k, mask);
    ApplyCons(video, Toggle(j, bit), TogglesFrom(sprite, x0, y0, k + 1, mask / 2));
  }

  /** Toggling commutes with one more flip */
  lemma {:induction false} ApplyFlip(video: Video, toggles: seq<Toggle>, index: nat, b: bool)
    requires OnScreenToggles(toggles) && index < ScreenSize
    ensures ApplyToggles(Flip(video, index, b), toggles) == Flip(ApplyToggles(video, toggles), index, b)
    decreases |toggles|
  {
    if |toggles| > 0 {
      var t := toggles[0];
      assert Flip(Flip(video, index, b), t.index, t.bit) == Flip(Flip(video, t.index, t.bit), index, b);
      ApplyFlip(Flip(video, t.index, t.bit), toggles[1..], index, b);
    }
  }

  /** Applying the same toggles twice restores the frame buffer */
  lemma {:induction false} ApplyTwice(video: Video, toggles: seq<Toggle>)
    requires OnScreenToggles(toggles)
    ensures ApplyToggles(ApplyToggles(video, toggles), toggles) == video
    decreases |toggles|
  {
    if |toggles| > 0 {
      var t := toggles[0];
      var rest := toggles[1..];
      ApplyFlip(video, rest, t.index, t.bit);
      var once := ApplyToggles(video, rest);
      assert ApplyToggles(video, toggles) == Flip(once, t.index, t.bit);
      assert Flip(Flip(once, t.index, t.bit), t.index, t.bit) == once;
      ApplyTwice(video, rest);
    }
  }

  /** The draw XORs a pattern that does not depend on the screen: flipping a
      pixel before drawing is the same as flipping it after. */
  lemma DrawFromFlip(sprite: seq<Byte>, x0: nat, y0: nat, k: nat, video: Video,
                     c1: bool, c2: bool, mask: nat, index: nat, b: bool)
    requires x0 < ScreenWidth && y0 < ScreenHeight && index < ScreenSize
    ensures DrawFrom(sprite, x0, y0, k, Flip(video, index, b), c1, mask).0
         == Flip(DrawFrom(sprite, x0, y0, k, video, c2, mask).0, index, b)
  {
    DrawFromToggles(sprite, x0, y0, k, Flip(video, index, b), c1, mask);
    DrawFromToggles(sprite, x0, y0, k, video, c2, mask);
    ApplyFlip(video, TogglesFrom(sprite, x0, y0, k, mask), index, b);
  }

  /** Drawing the same sprite at the same place twice restores the screen */
  lemma DrawFromTwice(sprite: seq<Byte>, x0: nat, y0: nat, k: nat, video: Video,
                      c1: bool, c2: bool, mask: nat)
    requires x0 < ScreenWidth && y0 < ScreenHeight
    ensures DrawFrom(sprite, x0, y0, k, DrawFrom(sprite, x0, y0, k, video, c1, mask).0, c2, mask).0 == video
  {
    var once := DrawFrom(sprite, x0, y0, k, video, c1, mask).0;
    DrawFromToggles(sprite, x0, y0, k, video, c1, mask);
    DrawFromToggles(sprite, x0, y0, k, once, c2, mask);
    ApplyTwice(video, TogglesFrom(sprite, x0, y0, k, mask));
  }

  /** The pixels a draw from (x0, y0) with `rows` sprite bytes may touch */
  ghost predicate InSpriteBox(x0: nat, y0: nat, rows: nat, index: int) {
    && x0 <= index % ScreenWidth < x0 + 8
    && y0 <= index / ScreenWidth < y0 + rows
  }

  /** `op_Dxyn` */
  function OpDxyn(s: VM, op: Opcodes): (r: Outcome<VM>)
    ensures !r.Hang?
    ensures r.Ok? <==> op.x < RegisterCount && op.y < RegisterCount && s.indexRegister <= op.n <= MemorySize
    ensures r.Ok? ==> r.value.updateDisplay
    ensures r.Ok? ==> RegistersExcept(s.(video := r.value.video, updateDisplay := true), r.value, {FlagRegister})
    ensures r.Ok? ==> forall index :: 0 <= index < ScreenSize && r.value.video[index] != s.video[index] ==>
              InSpriteBox(s.registers[op.x] % ScreenWidth, s.registers[op.y] % ScreenHeight,
                          op.n - s.indexRegister, index)
    ensures r.Ok? ==>
              r.value.registers[FlagRegister] ==
              (if exists index :: 0 <= index < ScreenSize && s.video[index] && !r.value.video[index] then 1 else 0)
  {
    var vx :- Reg(s, op.x);
    var vy :- Reg(s, op.y);
    var x0 := vx % ScreenWidth;
    var y0 := vy % ScreenHeight;
    if s.indexRegister > op.n || op.n > MemorySize then Panic
    else
      var sprite := s.memory[s.indexRegister..op.n];
      var (video, collided) := DrawFrom(sprite, x0, y0, 0, s.video, false, 0x80);
      DrawFromEffect(sprite, x0, y0, 0, s.video, false, 0x80);
      Ok(s.(updateDisplay := true, video := video,
            registers := s.registers[FlagRegister := if collided then 1 else 0]))
  }

  /** When neither coordinate register is VF, a second identical draw finds
      the same position, sprite and bitmask sequence, and undoes the first. */
  lemma DxynTwiceRestores(s: VM, op: Opcodes)
    requires OpDxyn(s, op).Ok?
    requires op.x != FlagRegister && op.y != FlagRegister
    ensures OpDxyn(OpDxyn(s, op).value, op).Ok?
    ensures OpDxyn(OpDxyn(s, op).value, op).value.video == s.video
  {
    var x0 := s.registers[op.x] % ScreenWidth;
    var y0 := s.registers[op.y] % ScreenHeight;
    var sprite := s.memory[s.indexRegister..op.n];
    DrawFromTwice(sprite, x0, y0, 0, s.video, false, false, 0x80);
  }

  /** The sprite slice starts at I and ends at n, a 4-bit number for any
      decoded instruction, so every draw with I at 16 or above panics. */
  lemma DxynPanicsAboveSixteen(s: VM, op: Opcodes)
    requires WellFormed(op)
    requires s.indexRegister >= 16
    ensures OpDxyn(s, op) == Panic
  {
  }
}

=== FILE: timers.dfy ===
/** The handlers of the index register and the timers: Annn, Fx07, Fx0A,
    Fx15, Fx18, Fx1E and Fx29 (src/virtual_machine.rs). The timers only move
    here; nothing in the modelled code counts them down. */
module Timers {
  import opened Outcomes
  import opened Machine

  /** Annn LD I, addr */
  function OpAnnn(s: VM, op: Opcodes): (r: Outcome<VM>)
    ensures r.Ok?
    ensures r.value.indexRegister == op.nnn
    ensures r.value == s.(indexRegister := r.value.indexRegister)
  {
    Ok(s.(indexRegister := op.nnn))
  }

  /** Fx07 LD Vx, DT */
  function OpFx07(s: VM, op: Opcodes): (r: Outcome<VM>)
    ensures !r.Hang?
    ensures r.Ok? <==> op.x < RegisterCount
    ensures r.Ok? ==> r.value.registers[op.x] == s.delayTimer
    ensures r.Ok? ==> RegistersExcept(s, r.value, {op.x})
  {
    if op.x >= RegisterCount then Panic
    else Ok(s.(registers := s.registers[op.x := s.delayTimer]))
  }

  /** Fx0A LD Vx, K: the source spins until some key is down, which no
      other code can change while it spins, then panics at the register
      write when x is 16 or more, or else at `todo!`. */
  function OpFx0A(s: VM, op: Opcodes): (r: Outcome<VM>)
    ensures !r.Ok?
    ensures r.Hang? <==> forall k :: 0 <= k < KeyCount ==> !s.keys[k]
  {
    if true in s.keys then Panic else Hang
  }

  /** Fx15 LD DT, Vx */
  function OpFx15(s: VM, op: Opcodes): (r: Outcome<VM>)
    ensures !r.Hang?
    ensures r.Ok? <==> op.x < RegisterCount
    ensures r.Ok? ==> r.value == s.(delayTimer := s.registers[op.x])
  {
    var vx :- Reg(s, op.x);
    Ok(s.(delayTimer := vx))
  }

  /** Fx18 LD ST, Vx */
  function OpFx18(s: VM, op: Opcodes): (r: Outcome<VM>)
    ensures !r.Hang?
    ensures r.Ok? <==> op.x < RegisterCount
    ensures r.Ok? ==> r.value == s.(soundTimer := s.registers[op.x])
  {
    var vx :- Reg(s, op.x);
    Ok(s.(soundTimer := vx))
  }

  /** Reading the delay timer straight after setting it from the same
      register changes nothing: the two handlers copy in opposite directions. */
  lemma DelayTimerRoundTrip(s: VM, op: Opcodes)
    requires op.x < RegisterCount
    ensures OpFx15(s, op).Ok?
    ensures OpFx07(OpFx15(s, op).value, op) == OpFx15(s, op)
  {
    var t := OpFx15(s, op).value;
    assert t.registers[op.x := t.delayTimer] == t.registers;
  }

  /** Setting the delay timer from the register Fx07 just filled restores
      the timer it was read from. */
  lemma DelayRegisterRoundTrip(s: VM, op: Opcodes)
    requires op.x < RegisterCount
    ensures OpFx07(s, op).Ok?
    ensures OpFx15(OpFx07(s, op).value, op) == OpFx07(s, op)
  {
  }

  /** Fx1E ADD I, Vx: a u16 `+=` that panics on overflow; VF then reports
      whether I left the 12-bit address space. */
  function OpFx1E(s: VM, op: Opcodes): (r: Outcome<VM>)
    ensures !r.Hang?
    ensures r.Ok? <==> op.x < RegisterCount && s.indexRegister + s.registers[op.x] < 0x1_0000
    ensures r.Ok? ==> r.value.indexRegister == s.indexRegister + s.registers[op.x]
    ensures r.Ok? ==> r.value.registers[FlagRegister] == (if r.value.indexRegister > 0x0FFF then 1 else 0)
    ensures r.Ok? ==> RegistersExcept(s.(indexRegister := r.value.indexRegister), r.value, {FlagRegister})
  {
    var vx :- Reg(s, op.x);
    if s.indexRegister + vx >= 0x1_0000 then Panic
    else
      var index := s.indexRegister + vx;
      Ok(s.(indexRegister := index, registers := s.registers[FlagRegister := if index > 0x0FFF then 1 else 0]))
  }

  /** Fx29 LD F, Vx: a bare `todo!` */
  function OpFx29(s: VM, op: Opcodes): (r: Outcome<VM>)
    ensures r.Panic?
  {
    Panic
  }
}
